=== FILE: README.md ===
# Run-Rotate: a Dafny model of the grid and physics engine

Run-Rotate is a tile puzzle-platformer. The player and movable boxes fall,
jump and walk among blocks, skulls (hazards), portals and a prize door. The
whole level can be turned a quarter left or right. Turning snaps every
sprite onto a square grid, permutes the grid and animates the sprites
towards their new cells.

This project models the engine part of `classes.py` as pure Dafny functions
on immutable records:

| module | file | what it models |
|---|---|---|
| `Options` | `options.dfy` | `Option` for grid cells (`''` is `None`) and the optional portal pair |
| `Entities` | `entities.dfy` | `Object`/`Dynamic` state: position, integer size, half-size `size // 2`, centre, motion state; the strict box overlap of `check_barrier`; `set_coords` |
| `Groups` | `groups.dfy` | `Group.add`/`remove` as set union / symmetric difference, the containers list, `die` |
| `Physics` | `physics.dfy` | `Dynamic.update` split into its phases, `on_portal`, `in_danger`, `Player.check_on_prize`, `Player.update` |
| `Snapping` | `snapping.dfy` | `round_to_cell_size` and `place_to_grid` |
| `Smoothing` | `smoothing.dfy` | `smooth_movement` without the drawing |
| `Rotation` | `rotation.dfy` | `rotate_grid` |

Modelling choices:

- Sprites are identified by a natural-number `Id`, because the game compares
  sprites by object identity.
- Groups live in a `Registry`: a map from group handles to member sets, and
  from each sprite to its list of containers.
- Positions and speeds are `real`: gravity is 0.4 and the animation blends
  fractions. The cell size, sprite sizes and grid indices are `int`.
- Python's integer and floor divisions are written out:
  - `size // 2` becomes `/ 2` on naturals.
  - `xspeed // 1.5` becomes `(2 * xspeed) / 3`, a floor on integers.
  - `coord % C` on a real becomes `coord - floor(coord / C) * C`.
- The module globals `all_sprites` and `all_without_bg` become parameters:
  - `scene` is every sprite.
  - `solid` is every sprite except the background ones.

  Both may contain the moving sprite, which every scan skips by identity.
- A group's iteration order, which Python does not fix, becomes an explicit
  sequence. Collision tests are existentials over it, so for them the order
  does not matter. It matters in two places, which are modelled as folds:
  - in the portal scan, a teleport moves the sprite mid-scan;
  - in `place_to_grid`, the later of two sprites in the same cell wins.

Where the code and its description differ, the model follows the code:

- **Start falling.** The "start falling" scan (`classes.py:222-228`) sets
  `down` as soon as *some* other collidable sprite is horizontally aligned
  with the sprite and vertically clear of it. It does not wait until
  nothing is below.
- **Smoothing.** `smooth_movement` re-reads the current position every
  frame and uses `t = i / 100` for `i < 100`. It is therefore a contraction,
  not a straight path: the remaining distance is multiplied by `1 - i/100`
  each frame. The first frame does not move. In exact arithmetic, a sprite
  that did not start on its target never reaches it. The fraction left
  after 100 frames is `100!/100^100`, about `9e-43`. That is far below
  the precision of a double, so with the game's floats a sprite may land
  on its target or within rounding of it.
- **Rounding.** With a one-pixel cell, `round_to_cell_size` is not
  idempotent: the remainder 0 already reaches `1 // 2 == 0`, so every
  whole coordinate moves up by one.

## Model

| member | source | states |
|---|---|---|
| Entities.NewSprite | classes.py:47-58 | a new object stands at the given coordinates with the given size; its centre is its coordinates plus half its size (integer halves); it starts off the floor and alive, with the given danger flag |
| Entities.NewMotion | classes.py:103-113 | a new dynamic object has no intent flags, gravity 0.4, vertical speed equal to its maximum, its snapshot at its coordinates, the latch open, and its ground at its centre height |
| Entities.SetCoords | classes.py:76-78 | moving an object keeps the offset between centre and position, changes only the position, and puts it at the given coordinates |
| Entities.OverlapSymmetric | classes.py:122-127 | `a.check_barrier(b)` holds exactly when `b.check_barrier(a)` does |
| Entities.TouchingIsNotOverlap | classes.py:122-127 | boxes whose centres are exactly the sum of the half-sizes apart on either axis do not overlap, because both comparisons are strict |
| Groups.Register | classes.py:60-61 | each `add_container` call appends the group once per occurrence of the sprite and leaves membership alone |
| Groups.Add | classes.py:21-32 | `add(*sprites)`: a sprite is a member afterwards iff it was before or is added; other groups are untouched; every added sprite lists the group once more |
| Groups.AddTuple | classes.py:21-27 | `add(t=...)`: a sprite is a member afterwards iff it was a member and is not in `t`, or it is in `t` and was not a member; each element of `t` still lists the group |
| Groups.Remove | classes.py:34-35 | `remove` flips the sprite's membership of that one group and touches nothing else |
| Groups.RemoveTwice | classes.py:34-35 | removing the same sprite twice gives back the original registry |
| Groups.RemoveAbsentInserts | classes.py:34-35 | removing a sprite that is not in the group puts it in |
| Groups.RemoveFromAll | classes.py:118-120 | one `remove` per list entry: the sprite ends in a group iff it started there and the group is listed an even number of times, or it started outside and the group is listed an odd number of times; other sprites keep their memberships |
| Groups.Die | classes.py:118-120 | `die` keeps the registry well formed and the container lists unchanged; membership of each group flips by the parity of how often the group is listed |
| Groups.DieRemovesFromEveryContainer | classes.py:118-120 | a sprite listed once in each group it belongs to is gone from all of them after dying |
| Groups.DieTwiceRestores | classes.py:118-120 | dying twice restores every group |
| Groups.CountPositive | classes.py:118-120 | every group on the container list is counted at least once |
| Physics.Snapshot | classes.py:157-159 | the tick starts by recording the current position as the snapshot; the position, intent flags, speeds, ground, latch and floor contact are unchanged |
| Physics.StepRight | classes.py:161-168 | holding right while not jumping moves x to `x + xspeed` when the box there overlaps no other collidable sprite, and otherwise puts x back at the snapshot; without that input nothing changes; only x ever changes |
| Physics.StepLeft | classes.py:170-177 | the same for left: x becomes `x - xspeed`, or the snapshot x when the box there overlaps another collidable sprite |
| Physics.Nudge | classes.py:192 | the air-control step `xspeed // 1.5` is the integer `n` with `3n <= 2*xspeed < 3n + 3` |
| Physics.Rise | classes.py:179-189 | rising moves up by `yspeed` and reduces `yspeed` by gravity; a collision at the new height clears `up`, zeroes `yspeed` and restores the snapshot y; the other flags are untouched |
| Physics.AirControl | classes.py:191-207 | with left held, x moves by `-(xspeed // 1.5)`; else with right held, by `+(xspeed // 1.5)`. If the box there overlaps another collidable sprite, x goes back to the snapshot and only that direction's flag is cleared; otherwise no flag changes. With neither held, nothing changes. y and floor contact never change |
| Physics.Ascend | classes.py:179-207 | the jump branch never changes `down`, the ground, floor contact, the snapshot or the speed bound |
| Physics.Descend | classes.py:209-220 | falling moves down by `yspeed` and adds gravity in both outcomes; a collision restores the snapshot y, sets `on_floor`, clears `down` (and no other flag) and records the centre height as the ground; without one, ground, floor contact and flags are unchanged; gravity, `xspeed`, the snapshot, the speed bound and the portal latch never change |
| Physics.Vertical | classes.py:179-220 | `if up ... elif down ...` keeps the snapshot and speed bound |
| Physics.StartFalling | classes.py:222-228 | afterwards `down` holds iff it held before, or `up` was clear and some other collidable sprite is horizontally aligned and vertically clear; setting it resets `yspeed` to its maximum; only `down` and `yspeed` can change, so the other flags, gravity, `xspeed` and the portal latch are kept; when the condition does not hold, nothing changes |
| Physics.ClampSpeed | classes.py:230 | afterwards `yspeed <= YSPEED`; the speed is either unchanged or lowered to `YSPEED` |
| Physics.Move | classes.py:157-230 | the movement phases keep identity, size, danger and class; the snapshot is the starting position and `yspeed` ends at most `YSPEED` |
| Physics.CollidesSameBox | classes.py:122-127 | the collision scan depends only on identity, position and size |
| Physics.StepsKeepClear | classes.py:161-177 | a horizontal step starting from a clear position whose snapshot is clear ends clear |
| Physics.AirControlKeepsClear | classes.py:191-207 | the same for air control |
| Physics.RiseKeepsClear | classes.py:179-189 | the same for rising |
| Physics.AscendKeepsClear | classes.py:179-207 | the same for the jump branch |
| Physics.DescendKeepsClear | classes.py:209-220 | the same for falling |
| Physics.VerticalKeepsClear | classes.py:179-220 | the same for the vertical branch |
| Physics.MoveKeepsClear | classes.py:157-230 | a sprite that starts the tick overlapping no collidable sprite overlaps none after moving: every tentative move that collides is undone |
| Physics.WalkRollback | classes.py:161-177 | a walk into an obstacle (one direction held, not jumping) leaves x where the tick found it |
| Physics.JumpRollback | classes.py:179-189 | a rise into an obstacle leaves y where the tick found it and ends the jump |
| Physics.FallRollback | classes.py:209-220 | a fall onto an obstacle leaves the sprite in place, on the floor, with its centre height as the ground |
| Physics.AscendExcludesDescend | classes.py:179-220 | a tick that enters the jump branch never runs the fall branch |
| Physics.PortalStep | classes.py:135-144 | one portal: overlapping it with the latch open moves the sprite to the twin coordinates and closes the latch; otherwise the position is unchanged, and the latch ends closed iff it was closed and the sprite is not leaving that portal (aligned, vertically clear, not overlapping); only position and latch ever change |
| Physics.OnPortal | classes.py:129-144 | the whole scan changes only position and latch, and leaves the sprite where it was or on the twin coordinates of some other portal of the scene |
| Physics.PortalCountById | classes.py:134-136 | which sprites count as portals depends only on the sprite's identity |
| Physics.TeleportBound | classes.py:129-144 | a scan teleports at most (portals + 1 if the latch was open) / 2 times, because each teleport closes the latch and only a later portal can reopen it |
| Physics.AtMostOneTeleport | classes.py:129-144 | with at most two portals, a scan teleports at most once |
| Physics.NoTeleportStays | classes.py:129-144 | a scan in which no portal teleports leaves the sprite where it was |
| Physics.OneTeleportLandsOnTwin | classes.py:129-144 | a scan that teleports once leaves the sprite on the twin coordinates of a portal it overlapped at the start of the scan |
| Physics.TeleportsWhenOverlapping | classes.py:134-141 | with the latch open, overlapping some portal makes the scan teleport at least once |
| Physics.PortalScan | classes.py:129-144 | with at most two portals, the sprite ends where it was or on the twin coordinates of a portal it overlapped; with the latch open and some portal overlapped, it ends on the twin coordinates of an overlapped portal |
| Physics.LatchHolds | classes.py:137-144 | with the latch closed and no portal being left, the scan changes nothing |
| Physics.LatchReleasedOnlyWhenLeaving | classes.py:142-144 | the latch reopens only if some portal is horizontally aligned with the sprite, vertically clear of it and not overlapping it |
| Physics.LatchReleasedWhenLeaving | classes.py:133-144 | conversely, when no portal overlaps the sprite the scan leaves it in place and never closes the latch, and if some portal is being left the latch ends open |
| Physics.HazardCount | classes.py:151-153 | the number of hazards is positive iff some other sprite overlaps and is dangerous |
| Physics.DieTimesParity | classes.py:153-155 | dying an even number of times restores the groups; an odd number is the same as dying once |
| Physics.InDanger | classes.py:146-155 | `in_danger` marks the sprite dead iff it was dead or overlaps some other dangerous sprite; it calls `die` once per such sprite and changes nothing else |
| Physics.HazardCountById | classes.py:151-153 | the hazard scan depends only on identity and box |
| Physics.TwoHazardsKeepMembership | classes.py:146-155 | overlapping two hazards in one tick kills the sprite and leaves every group as it was |
| Physics.AtPrizeOverlaps | classes.py:282-289 | standing at the exit (the halved horizontal window) implies overlapping it |
| Physics.CheckOnPrize | classes.py:282-289 | the exit flag ends set iff it was set or some other prize is within the window; nothing else changes |
| Physics.Update | classes.py:157-234 | after a tick the sprite keeps its identity, `yspeed <= YSPEED`, and it is dead iff it was dead or overlaps a hazard at its final position; the groups are those left by `die` run once per such hazard |
| Physics.PlayerUpdate | classes.py:293-311 | the player's tick is the dynamic tick followed by the exit check: same groups, bounded speed, and an exit flag that ends set iff it was set or the sprite, where the dynamic tick leaves it, is within the exit window of some prize |
| Snapping.EmptyGrid | classes.py:505-506 | a fresh grid is `n` by `n` and all cells are empty |
| Snapping.FloorDivBounds | classes.py:496 | `floor(coord / C) * C <= coord < (floor(coord / C) + 1) * C` |
| Snapping.Mod | classes.py:496 | Python's `coord % C` lies in `[0, C)` |
| Snapping.RoundToCell | classes.py:495-502 | the rounded coordinate is a multiple of C and equals the source's branch: `coord + C - coord % C` when the remainder is at least `C // 2`, else `coord - coord % C` |
| Snapping.RoundToCellIsNearby | classes.py:495-502 | the result is the multiple of C just below or just above `coord`, at most `C - C // 2` away |
| Snapping.RoundToCellIdempotent | classes.py:495-502 | for C >= 2, rounding a rounded coordinate changes nothing |
| Snapping.UnitCellShiftsUp | classes.py:495-502 | for C = 1, every whole coordinate rounds to the next one |
| Snapping.Snap | classes.py:508-510 | a snapped sprite sits on the top-left corner `(j*C, i*C)` of its cell; nothing else changes |
| Snapping.SnapIdempotent | classes.py:508-511 | for C >= 2, snapping again keeps the sprite in its cell and in place |
| Snapping.SetCell | classes.py:512 | writing one cell leaves the grid square and changes only that cell |
| Snapping.FillGrid | classes.py:507-512 | the grid writes keep the grid square; a changed cell holds a sprite of the group that snaps into it; a cell is empty iff it was empty and no sprite snaps into it |
| Snapping.PlaceToGrid | classes.py:504-514 | every sprite of the group is snapped and every other sprite is unchanged; every occupied cell holds a sprite of the group standing on that cell's corner; a cell is empty iff no sprite rounds into it; no sprite is in two cells |
| Snapping.FilledGridUnique | classes.py:505-512 | the grid built from an empty one holds no sprite in two cells |
| Snapping.FillGridSameCells | classes.py:507-512 | the grid writes depend only on the cell each sprite rounds into |
| Snapping.SnapAllIdempotent | classes.py:507-510 | for C >= 2, snapping the snapped group again changes no sprite |
| Snapping.PlaceToGridIdempotent | classes.py:504-514 | for C >= 2, the placed group can be placed again, and placing it again gives the same sprites and the same grid |
| Smoothing.Blend | classes.py:448-453 | one frame multiplies the distance left to the target by `1 - i/100` |
| Smoothing.Shrink | classes.py:447-453 | the fraction of the distance left after `k` frames is in (0, 1] |
| Smoothing.Glide | classes.py:447-454 | after `k` frames the distance left is that fraction of the starting distance |
| Smoothing.GlideBetween | classes.py:447-454 | at every frame the sprite is between its start and its target |
| Smoothing.GlideApproaches | classes.py:447-454 | the distance to the target never grows from one frame to the next |
| Smoothing.FirstFrameStill | classes.py:447-454 | with `t = 0` the first frame does not move the sprite |
| Smoothing.GlideArrivesOnlyFromTarget | classes.py:447-454 | in exact arithmetic, at no frame, the last included, is the sprite on its target unless it started there |
| Smoothing.GlidePos | classes.py:447-454 | on both axes the position stays between the start and the target, and equals the target iff the start did |
| Smoothing.RowTargets | classes.py:440-445 | scanning a row adds exactly the row's sprites, each targeting the corner of a cell of the row that holds it; other entries are unchanged |
| Smoothing.GridTargets | classes.py:439-445 | the sprites with a target are those in the scanned rows, and each targets the corner of a cell that holds it |
| Smoothing.Targets | classes.py:437-445 | the sprites with a target are exactly the sprites of the grid, each targeting the corner `(j*C, i*C)` of a cell that holds it |
| Smoothing.TargetOfUniqueCell | classes.py:439-445 | when no sprite is in two cells, a sprite's target is the corner of its own cell |
| Smoothing.Animate | classes.py:447-454 | after the hundred frames, each sprite with a target is where the glide puts it, and the others have not moved |
| Smoothing.SetTwin | classes.py:259-260 | `set_twin_coords` changes only that portal's twin coordinates |
| Smoothing.SwapTwins | classes.py:461-464 | with two portals, each portal's twin becomes the other's position and nothing else changes; without portals nothing changes |
| Smoothing.SmoothMovement | classes.py:436-464 | every sprite of the grid ends off the floor, on the glide towards the corner of a cell that holds it; other sprites keep position and floor contact; only the floor flag, the position and the portals' twin coordinates are written, so identity, size, danger, death and every other sprite's class and motion state never change; the two portals end up pointing at each other |
| Rotation.RotateCells | classes.py:466-481 | turning right, new `[i][k]` is old `[n-1-k][i]`; turning left, new `[k][i]` is old `[i][n-1-k]`; any other side gives an empty grid; the result is the reference turn `Rotated` |
| Rotation.LeftUndoesRight | classes.py:466-481 | turning left after turning right gives back the grid |
| Rotation.RightUndoesLeft | classes.py:466-481 | turning right after turning left gives back the grid |
| Rotation.HalfTurn | classes.py:471-475 | two right turns send cell `[i][j]` to `[n-1-i][n-1-j]` |
| Rotation.FourRightTurns | classes.py:471-475 | four right turns give back the grid |
| Rotation.RightTurnExample | classes.py:471-475 | `[[A, ''], ['', B]]` turned right is `[['', A], [B, '']]` |
| Rotation.DestinationCell | classes.py:471-481 | the content of old cell `(i, j)` lands on its destination: `(j, n-1-i)` turning right, `(n-1-j, i)` turning left |
| Rotation.SourceCell | classes.py:471-481 | every new cell is filled from one old cell, whose destination it is |
| Rotation.TurnMovesCells | classes.py:471-481 | both facts above for every cell |
| Rotation.TurnKeepsSprites | classes.py:471-481 | the same sprites are on the grid before and after a left or right turn |
| Rotation.TurnKeepsUnique | classes.py:471-481 | a turn puts no sprite into two cells if none was in two before |
| Rotation.DestinationIsQuarterTurn | classes.py:471-481 | in pixels, turning right sends a cell corner `(x, y)` to `((n-1)C - y, x)` and turning left sends it to `(y, (n-1)C - x)` |
| Rotation.RotateGrid | classes.py:466-483 | turning left or right, every sprite of the old grid ends off the floor, gliding towards the destination of a cell it occupied; with any other side nobody moves; only sprites of the grid move or leave the floor; only the floor flag, the position and the portals' twin coordinates change, so identity, size, danger, death and every non-portal's class and motion state are kept; the portals end up pointing at each other; the grid is `700 // C` cells a side and, for a turn, not empty |

## Left out

- The camera controller `Cv` (`classes.py:318-395`) is not modelled. It is
  OpenCV capture, tkinter sliders and globals written from a second thread.
- Rendering and UI are not modelled: `Game.__init__`, `Menu`, `Button`,
  the `show_message_*` methods, `quitgame`, `Group.draw`, and the screen
  fill and blit inside `smooth_movement`. These are pygame asset loading,
  drawing and input.
- `Level.start`, `track_events` and `create_objects` are not modelled. They
  are the event loop, the key and aim mapping and the level data. The
  event loop's ordering of entity updates within a frame is not modelled
  either.
- `Dynamic.go` is not modelled. It only writes one intent flag, on behalf
  of the event loop.
- The sprite-image selection at the start of `Player.update`
  (`classes.py:293-308`) is presentation only.
- Floating-point rounding is not modelled: gravity and the animation blend
  use exact reals. In particular, the animation facts are facts about exact
  reals: the game's doubles may round a sprite onto its target. Nor does
  the model claim anything about the float equality `center_y == ground`
  tested by the jump key.
- Snapping.Fits: the model requires every snapped sprite to land inside
  the grid. In Python a negative index silently wraps around and a too
  large one raises, which this model does not reproduce.
- Snapping.PlaceToGrid: the model requires a group without repeated
  sprites. A Python set has none.
- Rotation.RotateGrid: only "right", "left" and any other string (neither
  branch) are distinguished. The `side` string is otherwise not modelled.
- Rotation.RotateGrid: the model requires the grid to have `700 // C`
  cells a side, as `place_to_grid` builds it, and at least one cell when
  turning. With an empty grid the source's turn fails reading `grid[0]`;
  a larger grid overflows `temp`; a smaller one is padded with empty
  cells. None of these error or padding paths is modelled.
- Rotation.RotateCells: the turn is stated for any square grid and sizes
  its result by the grid. The source always builds a `700 // C` grid, so
  the two agree only on grids of that size, which RotateGrid requires.
- Smoothing.SmoothMovement: the model requires the level's two portal
  objects to be portals present in the scene. The `try`/`except: pass`
  around the twin update is modelled only as "no portals, no update".
- Physics.Update: the model requires a well-formed registry, i.e. every
  container of a sprite is a known group. In the game this holds by
  construction.

=== FILE: entities.dfy ===
/** Sprites of the level and the box geometry they share.

    Every sprite has a top-left position, an integer size and a half-size
    computed as `size // 2`; its centre is always the position plus the
    half-size.  Dynamic sprites (the player and the movable boxes) also carry
    their motion state; portals carry the coordinates of their twin. */
module Entities {

  /** Object identity: the game compares sprites with `==` on objects. */
  type Id = nat

  datatype Vec = Vec(x: real, y: real)

  datatype Size = Size(w: nat, h: nat)

  /** The four motion-intent flags (`_can_be` in the game). */
  datatype Intent = Intent(left: bool, right: bool, down: bool, up: bool)

  /** State that only dynamic sprites have. `ySpeedMax` is the initial vertical
      speed (`_YSPEED`), which is also the upper clamp of `ySpeed`. */
  datatype Motion = Motion(
    prev: Vec,
    canBe: Intent,
    ground: real,
    gravity: real,
    ySpeedMax: real,
    xSpeed: int,
    ySpeed: real,
    onPortal: bool)

  /** The sprite classes of the game, as a tagged variant. */
  datatype Kind =
    | Block
    | Skull
    | Prize
    | Portal(portalId: int, twin: Vec)
    | Box(motion: Motion)
    | Player(motion: Motion, onPrize: bool)

  /** An axis-aligned box: top-left corner and size. */
  datatype Rect = Rect(pos: Vec, size: Size) {

    function HalfX(): int { size.w / 2 }

    function HalfY(): int { size.h / 2 }

    function Center(): Vec { Vec(pos.x + HalfX() as real, pos.y + HalfY() as real) }
  }

  datatype Sprite = Sprite(
    id: Id,
    pos: Vec,
    size: Size,
    danger: bool,
    onFloor: bool,
    dead: bool,
    kind: Kind)
  {
    predicate IsDynamic() { kind.Box? || kind.Player? }

    function Bounds(): Rect { Rect(pos, size) }

    function Center(): Vec { Bounds().Center() }
  }

  function Abs(r: real): real { if r < 0.0 then -r else r }

  /** Centres closer horizontally than the sum of the half-widths. */
  predicate XAligned(a: Rect, b: Rect) {
    Abs(a.Center().x - b.Center().x) < (a.HalfX() + b.HalfX()) as real
  }

  /** Centres closer vertically than the sum of the half-heights. */
  predicate YAligned(a: Rect, b: Rect) {
    Abs(a.Center().y - b.Center().y) < (a.HalfY() + b.HalfY()) as real
  }

  /** Centres further apart vertically than the sum of the half-heights. */
  predicate YApart(a: Rect, b: Rect) {
    Abs(a.Center().y - b.Center().y) > (a.HalfY() + b.HalfY()) as real
  }

  /** The strict overlap test of `check_barrier`: boxes whose edges only
      touch do not overlap. */
  predicate Overlap(a: Rect, b: Rect) {
    XAligned(a, b) && YAligned(a, b)
  }

  lemma OverlapSymmetric(a: Rect, b: Rect)
    ensures Overlap(a, b) <==> Overlap(b, a)
  {
  }

  /** Edges that touch on either axis (centre distance equal to the sum of
      the half-sizes) do not count as overlap. */
  lemma TouchingIsNotOverlap(a: Rect, b: Rect)
    requires Abs(a.Center().x - b.Center().x) == (a.HalfX() + b.HalfX()) as real
          || Abs(a.Center().y - b.Center().y) == (a.HalfY() + b.HalfY()) as real
    ensures !Overlap(a, b) && !Overlap(b, a)
  {
  }

  /** `Object.__init__`: a fresh sprite stands where it was created, is not
      on the floor and is alive. */
  function NewSprite(id: Id, size: Size, coords: Vec, danger: bool, kind: Kind): (s: Sprite)
    ensures s.pos == coords && s.size == size
    ensures s.Center() == Vec(coords.x + (size.w / 2) as real, coords.y + (size.h / 2) as real)
    ensures !s.onFloor && !s.dead && s.danger == danger && s.kind == kind && s.id == id
  {
    Sprite(id, coords, size, danger, false, false, kind)
  }

  /** `Dynamic.__init__`: no intent flags set, gravity 0.4, the vertical
      speed starts at its maximum, and the ground is the initial centre
      height. */
  function NewMotion(xSpeed: int, ySpeed: real, size: Size, coords: Vec): (m: Motion)
    ensures m.ground == Rect(coords, size).Center().y
    ensures m.ySpeed == m.ySpeedMax == ySpeed && m.xSpeed == xSpeed
    ensures m.gravity == 0.4 && m.prev == coords && !m.onPortal
    ensures m.canBe == Intent(false, false, false, false)
  {
    Motion(coords, Intent(false, false, false, false), coords.y + (size.h / 2) as real,
           0.4, ySpeed, xSpeed, ySpeed, false)
  }

  /** `set_coords`: moves the sprite; the centre follows the position, and
      nothing else changes. */
  function SetCoords(s: Sprite, coords: Vec): (r: Sprite)
    ensures r.Center().x - coords.x == s.Center().x - s.pos.x
    ensures r.Center().y - coords.y == s.Center().y - s.pos.y
    ensures r.(pos := s.pos) == s && r.pos == coords
  {
    s.(pos := coords)
  }
}

=== FILE: groups.dfy ===
/** Group membership and the back-references from sprites to their groups.

    A group is a set of sprite identities.  Adding a sprite also appends the
    group to the sprite's list of containers; a sprite that dies removes
    itself once from every group on that list.  Removal, and adding a tuple,
    are symmetric differences: they toggle membership rather than force it. */
module Groups {
  import opened Entities

  type GroupId = nat

  /** The arena of groups, addressed by handle, and each sprite's container
      list (a sprite nobody has added yet has the empty list). */
  datatype Registry = Registry(members: map<GroupId, set<Id>>, containers: map<Id, seq<GroupId>>)

  function Xor<T>(a: set<T>, b: set<T>): set<T> { (a - b) + (b - a) }

  function ContainersOf(reg: Registry, id: Id): seq<GroupId> {
    if id in reg.containers then reg.containers[id] else []
  }

  /** Number of occurrences of `x` in `s`. */
  function Count<T(==)>(s: seq<T>, x: T): nat {
    if |s| == 0 then 0 else Count(s[..|s| - 1], x) + (if s[|s| - 1] == x then 1 else 0)
  }

  function Repeat<T>(x: T, n: nat): (r: seq<T>)
    ensures |r| == n && forall k :: 0 <= k < n ==> r[k] == x
  {
    seq(n, _ => x)
  }

  /** Every group a sprite lists as a container exists in the arena. */
  ghost predicate WellFormed(reg: Registry) {
    forall id, k :: id in reg.containers && 0 <= k < |reg.containers[id]| ==>
      reg.containers[id][k] in reg.members
  }

  /** `add_container` applied to each of `sprites` in turn: group `g` is
      appended once per occurrence of a sprite. */
  function Register(reg: Registry, g: GroupId, sprites: seq<Id>): (r: Registry)
    ensures r.members == reg.members
    ensures forall id :: ContainersOf(r, id) == ContainersOf(reg, id) + Repeat(g, Count(sprites, id))
    decreases |sprites|
  {
    if |sprites| == 0 then reg
    else
      var init := sprites[..|sprites| - 1];
      var front := Register(reg, g, init);
      var last := sprites[|sprites| - 1];
      var r := front.(containers := front.containers[last := ContainersOf(front, last) + [g]]);
      assert forall id :: ContainersOf(r, id) == ContainersOf(reg, id) + Repeat(g, Count(sprites, id)) by {
        forall id ensures ContainersOf(r, id) == ContainersOf(reg, id) + Repeat(g, Count(sprites, id)) {
          var n := Count(init, id);
          var isLast := id == last;
          assert Count(sprites, id) == n + if isLast then 1 else 0;
          RegisterStepAt(ContainersOf(reg, id), ContainersOf(front, id), ContainersOf(r, id), g, n, isLast);
        }
      }
      r
  }

  /** One sprite's container list during one step of `Register`. */
  lemma RegisterStepAt(before: seq<GroupId>, front: seq<GroupId>, after: seq<GroupId>, g: GroupId, n: nat, isLast: bool)
    requires front == before + Repeat(g, n)
    requires after == if isLast then front + [g] else front
    ensures after == before + Repeat(g, n + if isLast then 1 else 0)
  {
    if isLast {
      assert Repeat(g, n + 1) == Repeat(g, n) + [g];
    }
  }

  /** `Group.add(*sprites)`: set union, and the group is registered with each
      added sprite.  No other group changes. */
  function Add(reg: Registry, g: GroupId, sprites: seq<Id>): (r: Registry)
    requires g in reg.members
    ensures r.members.Keys == reg.members.Keys
    ensures forall id :: id in r.members[g] <==> id in reg.members[g] || id in sprites
    ensures forall h :: h in reg.members && h != g ==> r.members[h] == reg.members[h]
    ensures forall id :: ContainersOf(r, id) == ContainersOf(reg, id) + Repeat(g, Count(sprites, id))
  {
    var grown := reg.(members := reg.members[g := reg.members[g] + set id | id in sprites]);
    Register(grown, g, sprites)
  }

  /** `Group.add(t=...)`: symmetric difference with the tuple's elements, so a
      sprite already present is taken out; every element is still registered. */
  function AddTuple(reg: Registry, g: GroupId, t: seq<Id>): (r: Registry)
    requires g in reg.members
    ensures r.members.Keys == reg.members.Keys
    ensures forall id :: id in r.members[g] <==> (id in reg.members[g] <==> id !in t)
    ensures forall h :: h in reg.members && h != g ==> r.members[h] == reg.members[h]
    ensures forall id :: ContainersOf(r, id) == ContainersOf(reg, id) + Repeat(g, Count(t, id))
  {
    var toggled := reg.(members := reg.members[g := Xor(reg.members[g], set id | id in t)]);
    Register(toggled, g, t)
  }

  /** `Group.remove`: toggles one sprite's membership of one group. */
  function Remove(reg: Registry, g: GroupId, id: Id): (r: Registry)
    requires g in reg.members
    ensures r.members.Keys == reg.members.Keys && r.containers == reg.containers
    ensures id in r.members[g] <==> id !in reg.members[g]
    ensures forall other :: other != id ==> (other in r.members[g] <==> other in reg.members[g])
    ensures forall h :: h in reg.members && h != g ==> r.members[h] == reg.members[h]
  {
    reg.(members := reg.members[g := Xor(reg.members[g], {id})])
  }

  /** Removing twice restores the group. */
  lemma RemoveTwice(reg: Registry, g: GroupId, id: Id)
    requires g in reg.members
    ensures Remove(Remove(reg, g, id), g, id) == reg
  {
    var r := Remove(Remove(reg, g, id), g, id);
    assert r.members[g] == reg.members[g];
    assert r.members == reg.members;
  }

  /** Removing a sprite that is not in the group inserts it. */
  lemma RemoveAbsentInserts(reg: Registry, g: GroupId, id: Id)
    requires g in reg.members && id !in reg.members[g]
    ensures id in Remove(reg, g, id).members[g]
  {
  }

  /** One more occurrence flips the parity. */
  lemma ParityStep(c: nat)
    ensures (c + 1) % 2 == 0 <==> c % 2 != 0
  {
  }

  /** One group's membership during one step of `RemoveFromAll`: a removal
      from that group flips it, and one more listing flips the parity. */
  lemma RemoveStepAt(before: bool, front: bool, after: bool, c: nat, isLast: bool)
    requires front <==> (before <==> c % 2 == 0)
    requires after <==> (if isLast then !front else front)
    ensures after <==> (before <==> (c + if isLast then 1 else 0) % 2 == 0)
  {
    if isLast {
      ParityStep(c);
    }
  }

  /** `Remove` for each group of the list `gs`, in order. */
  function RemoveFromAll(reg: Registry, gs: seq<GroupId>, id: Id): (r: Registry)
    requires forall k :: 0 <= k < |gs| ==> gs[k] in reg.members
    ensures r.members.Keys == reg.members.Keys && r.containers == reg.containers
    ensures forall g :: g in reg.members ==>
      (id in r.members[g] <==> (id in reg.members[g] <==> Count(gs, g) % 2 == 0))
    ensures forall g, other :: g in reg.members && other != id ==>
      (other in r.members[g] <==> other in reg.members[g])
    decreases |gs|
  {
    if |gs| == 0 then reg
    else
      var front := gs[..|gs| - 1];
      var r0 := RemoveFromAll(reg, front, id);
      var r := Remove(r0, gs[|gs| - 1], id);
      RemoveFromAllStep(reg, r0, r, gs, id);
      r
  }

  /** One more `remove` in `RemoveFromAll` flips the membership of the
      sprite in the last listed group, and the parity of its count. */
  lemma RemoveFromAllStep(reg: Registry, r0: Registry, r: Registry, gs: seq<GroupId>, id: Id)
    requires |gs| > 0 && gs[|gs| - 1] in r0.members && r0.members.Keys == reg.members.Keys
    requires forall g :: g in reg.members ==>
      (id in r0.members[g] <==> (id in reg.members[g] <==> Count(gs[..|gs| - 1], g) % 2 == 0))
    requires r == Remove(r0, gs[|gs| - 1], id)
    ensures forall g :: g in reg.members ==>
      (id in r.members[g] <==> (id in reg.members[g] <==> Count(gs, g) % 2 == 0))
  {
    var last := gs[|gs| - 1];
    forall g | g in reg.members
      ensures id in r.members[g] <==> (id in reg.members[g] <==> Count(gs, g) % 2 == 0)
    {
      var c := Count(gs[..|gs| - 1], g);
      var isLast := last == g;
      assert Count(gs, g) == c + if isLast then 1 else 0;
      RemoveStepAt(id in reg.members[g], id in r0.members[g], id in r.members[g], c, isLast);
    }
  }

  /** `Dynamic.die`: one `remove` per entry of the sprite's container list.
      A group listed an even number of times ends where it started. */
  function Die(reg: Registry, id: Id): (r: Registry)
    requires WellFormed(reg)
    ensures WellFormed(r) && r.containers == reg.containers && r.members.Keys == reg.members.Keys
    ensures forall g :: g in reg.members ==>
      (id in r.members[g] <==> (id in reg.members[g] <==> Count(ContainersOf(reg, id), g) % 2 == 0))
    ensures forall g, other :: g in reg.members && other != id ==>
      (other in r.members[g] <==> other in reg.members[g])
  {
    RemoveFromAll(reg, ContainersOf(reg, id), id)
  }

  /** A sprite registered once with each group it belongs to is gone from
      all of them after dying. */
  lemma DieRemovesFromEveryContainer(reg: Registry, id: Id)
    requires WellFormed(reg)
    requires forall g :: Count(ContainersOf(reg, id), g) <= 1
    requires forall k :: 0 <= k < |ContainersOf(reg, id)| ==>
      id in reg.members[ContainersOf(reg, id)[k]]
    ensures forall g :: g in reg.members && g in ContainersOf(reg, id) ==> id !in Die(reg, id).members[g]
  {
    forall g | g in reg.members && g in ContainersOf(reg, id)
      ensures id !in Die(reg, id).members[g]
    {
      var cs := ContainersOf(reg, id);
      var k :| 0 <= k < |cs| && cs[k] == g;
      CountPositive(cs, k);
    }
  }

  lemma {:induction false} CountPositive<T>(s: seq<T>, k: nat)
    requires k < |s|
    ensures Count(s, s[k]) >= 1
    decreases |s|
  {
    if k < |s| - 1 {
      assert s[..|s| - 1][k] == s[k];
      CountPositive(s[..|s| - 1], k);
    }
  }

  /** Dying twice restores every group: the second round of removals
      re-inserts the sprite wherever the first took it out. */
  lemma DieTwiceRestores(reg: Registry, id: Id)
    requires WellFormed(reg)
    ensures Die(Die(reg, id), id) == reg
  {
    var r := Die(Die(reg, id), id);
    forall g | g in reg.members ensures r.members[g] == reg.members[g] {
    }
    assert r.members == reg.members;
  }
}

=== FILE: options.dfy ===
/** A value that may be missing.  A grid cell is `None` where the game
    stores the empty string '', and a level without portals has `None` for
    its pair of portals. */
module Options {
  datatype Option<T> = None | Some(value: T)
}

=== FILE: physics.dfy ===
/** One simulation tick of a dynamic sprite (`Dynamic.update`), followed by
    the portal and hazard checks it ends with, and the player's exit check.

    `solid` is the collidable set (every sprite except the background ones)
    and `scene` the full set of sprites; both may contain the moving sprite
    itself, which every scan skips by identity.  Every collision test is an
    existential over the sequence, so the order of the sprites in `solid`
    does not matter; the portal scan is a fold, because a teleport moves the
    sprite in the middle of the scan. */
module Physics {
  import opened Entities
  import opened Groups

  /** What no phase of the tick changes: identity, size, danger, death and
      the sprite's class (and, for the player, the exit flag). */
  predicate SameSprite(s: Sprite, r: Sprite) {
    && r.id == s.id && r.size == s.size && r.danger == s.danger && r.dead == s.dead
    && r.kind.Box? == s.kind.Box? && r.kind.Player? == s.kind.Player?
    && (r.kind.Player? && s.kind.Player? ==> r.kind.onPrize == s.kind.onPrize)
  }

  function Mo(s: Sprite): Motion
    requires s.IsDynamic()
  {
    s.kind.motion
  }

  function WithMotion(s: Sprite, m: Motion): (r: Sprite)
    requires s.IsDynamic()
    ensures r.IsDynamic() && Mo(r) == m && r.Bounds() == s.Bounds()
    ensures SameSprite(s, r)
  {
    s.(kind := s.kind.(motion := m))
  }

  function WithIntent(s: Sprite, canBe: Intent): (r: Sprite)
    requires s.IsDynamic()
    ensures r.IsDynamic() && r.Bounds() == s.Bounds()
    ensures SameSprite(s, r)
  {
    WithMotion(s, Mo(s).(canBe := canBe))
  }

  /** `check_barrier` against the collidable set: some other sprite overlaps. */
  predicate Collides(s: Sprite, solid: seq<Sprite>) {
    exists k :: 0 <= k < |solid| && solid[k].id != s.id && Overlap(s.Bounds(), solid[k].Bounds())
  }

  /** The same test for the sprite's box moved to `p`. */
  predicate CollidesAt(s: Sprite, p: Vec, solid: seq<Sprite>) {
    Collides(s.(pos := p), solid)
  }

  // ---------------------------------------------------------------------
  // The phases of Dynamic.update, in source order
  // ---------------------------------------------------------------------

  /** Remember the position the tick starts from. */
  function Snapshot(s: Sprite): (r: Sprite)
    requires s.IsDynamic()
    ensures r.IsDynamic() && Mo(r).prev == r.pos == s.pos
    ensures SameSprite(s, r)
    ensures Mo(r) == Mo(s).(prev := s.pos) && r.onFloor == s.onFloor
  {
    WithMotion(s, Mo(s).(prev := s.pos))
  }

  /** Move right by `xSpeed` unless jumping; undo the move if it overlaps. */
  function StepRight(s: Sprite, solid: seq<Sprite>): (r: Sprite)
    requires s.IsDynamic()
    ensures r.IsDynamic() && Mo(r) == Mo(s) && r.pos.y == s.pos.y
    ensures r == s.(pos := r.pos)
    ensures Mo(s).canBe.right && !Mo(s).canBe.up ==>
      var x := s.pos.x + Mo(s).xSpeed as real;
      r.pos.x == if CollidesAt(s, Vec(x, s.pos.y), solid) then Mo(s).prev.x else x
    ensures !(Mo(s).canBe.right && !Mo(s).canBe.up) ==> r == s
  {
    var m := Mo(s);
    if m.canBe.right && !m.canBe.up then
      var t := SetCoords(s, Vec(s.pos.x + m.xSpeed as real, s.pos.y));
      CollidesSameBox(t, s.(pos := t.pos), solid);
      if Collides(t, solid) then SetCoords(t, Vec(m.prev.x, t.pos.y)) else t
    else s
  }

  /** Move left by `xSpeed` unless jumping; undo back to the snapshot. */
  function StepLeft(s: Sprite, solid: seq<Sprite>): (r: Sprite)
    requires s.IsDynamic()
    ensures r.IsDynamic() && Mo(r) == Mo(s) && r.pos.y == s.pos.y
    ensures r == s.(pos := r.pos)
    ensures Mo(s).canBe.left && !Mo(s).canBe.up ==>
      var x := s.pos.x - Mo(s).xSpeed as real;
      r.pos.x == if CollidesAt(s, Vec(x, s.pos.y), solid) then Mo(s).prev.x else x
    ensures !(Mo(s).canBe.left && !Mo(s).canBe.up) ==> r == s
  {
    var m := Mo(s);
    if m.canBe.left && !m.canBe.up then
      var t := SetCoords(s, Vec(s.pos.x - m.xSpeed as real, s.pos.y));
      CollidesSameBox(t, s.(pos := t.pos), solid);
      if Collides(t, solid) then SetCoords(t, Vec(m.prev.x, t.pos.y)) else t
    else s
  }

  /** The air-control nudge `xspeed // 1.5`: Python's floor division by 1.5
      of an integer is the floor of two thirds of it. */
  function Nudge(xSpeed: int): (n: int)
    ensures 3 * n <= 2 * xSpeed < 3 * n + 3
  {
    (2 * xSpeed) / 3
  }

  /** One air-control move by `dx`; on overlap the sprite returns to the
      snapshot x and its intent becomes `blocked`. */
  function AirNudge(s: Sprite, solid: seq<Sprite>, dx: real, blocked: Intent): (r: Sprite)
    requires s.IsDynamic()
    ensures r.IsDynamic() && r.pos.y == s.pos.y
    ensures SameSprite(s, r) && r.onFloor == s.onFloor
    ensures CollidesAt(s, Vec(s.pos.x + dx, s.pos.y), solid) ==>
      r.pos.x == Mo(s).prev.x && Mo(r) == Mo(s).(canBe := blocked)
    ensures !CollidesAt(s, Vec(s.pos.x + dx, s.pos.y), solid) ==>
      r.pos.x == s.pos.x + dx && Mo(r) == Mo(s)
  {
    var t := SetCoords(s, Vec(s.pos.x + dx, s.pos.y));
    CollidesSameBox(t, s.(pos := t.pos), solid);
    if Collides(t, solid) then WithIntent(SetCoords(t, Vec(Mo(s).prev.x, t.pos.y)), blocked) else t
  }

  /** Air control while jumping: nudge in the held direction (left wins);
      on overlap, drop that direction's flag and return to the snapshot x. */
  function AirControl(s: Sprite, solid: seq<Sprite>): (r: Sprite)
    requires s.IsDynamic()
    ensures r.IsDynamic() && r.pos.y == s.pos.y
    ensures SameSprite(s, r) && r.onFloor == s.onFloor
    ensures var m := Mo(s); m.canBe.left ==>
      var x := s.pos.x - Nudge(m.xSpeed) as real;
      if CollidesAt(s, Vec(x, s.pos.y), solid)
      then r.pos.x == m.prev.x && Mo(r) == m.(canBe := m.canBe.(left := false))
      else r.pos.x == x && Mo(r) == m
    ensures var m := Mo(s); !m.canBe.left && m.canBe.right ==>
      var x := s.pos.x + Nudge(m.xSpeed) as real;
      if CollidesAt(s, Vec(x, s.pos.y), solid)
      then r.pos.x == m.prev.x && Mo(r) == m.(canBe := m.canBe.(right := false))
      else r.pos.x == x && Mo(r) == m
    ensures !Mo(s).canBe.left && !Mo(s).canBe.right ==> r == s
  {
    var m := Mo(s);
    var n := Nudge(m.xSpeed) as real;
    if m.canBe.left then
      var r := AirNudge(s, solid, -n, m.canBe.(left := false));
      assert s.pos.x + -n == s.pos.x - n;
      r
    else if m.canBe.right then AirNudge(s, solid, n, m.canBe.(right := false))
    else s
  }

  /** Rising: move up by `ySpeed`, then slow down by `gravity`.  Hitting
      something ends the jump: `up` is cleared, the vertical speed is zero
      and the sprite is back at the snapshot height. */
  function Rise(s: Sprite, solid: seq<Sprite>): (r: Sprite)
    requires s.IsDynamic()
    ensures r.IsDynamic() && r.pos.x == s.pos.x
    ensures SameSprite(s, r) && r.onFloor == s.onFloor
    ensures Mo(r).(canBe := Mo(s).canBe, ySpeed := Mo(s).ySpeed) == Mo(s)
    ensures Mo(r).canBe.(up := Mo(s).canBe.up) == Mo(s).canBe
    ensures CollidesAt(s, Vec(s.pos.x, s.pos.y - Mo(s).ySpeed), solid) ==>
      !Mo(r).canBe.up && Mo(r).ySpeed == 0.0 && r.pos.y == Mo(s).prev.y
    ensures !CollidesAt(s, Vec(s.pos.x, s.pos.y - Mo(s).ySpeed), solid) ==>
      Mo(r).canBe == Mo(s).canBe && Mo(r).ySpeed == Mo(s).ySpeed - Mo(s).gravity
      && r.pos.y == s.pos.y - Mo(s).ySpeed
  {
    var m := Mo(s);
    var t := WithMotion(SetCoords(s, Vec(s.pos.x, s.pos.y - m.ySpeed)), m.(ySpeed := m.ySpeed - m.gravity));
    CollidesSameBox(t, s.(pos := Vec(s.pos.x, s.pos.y - m.ySpeed)), solid);
    if Collides(t, solid)
    then WithMotion(SetCoords(t, Vec(t.pos.x, m.prev.y)), Mo(t).(canBe := m.canBe.(up := false), ySpeed := 0.0))
    else t
  }

  /** The ascend branch: rise, then air control in either case. */
  function Ascend(s: Sprite, solid: seq<Sprite>): (r: Sprite)
    requires s.IsDynamic()
    ensures r.IsDynamic()
    ensures Mo(r).canBe.down == Mo(s).canBe.down && Mo(r).ground == Mo(s).ground
    ensures r.onFloor == s.onFloor && Mo(r).prev == Mo(s).prev
    ensures SameSprite(s, r) && Mo(r).ySpeedMax == Mo(s).ySpeedMax
  {
    AirControl(Rise(s, solid), solid)
  }

  /** Falling: move down by `ySpeed`, then speed up by `gravity`.  Landing
      on something puts the sprite back at the snapshot height, on the
      floor, no longer falling, with the ground recorded at its centre. */
  function Descend(s: Sprite, solid: seq<Sprite>): (r: Sprite)
    requires s.IsDynamic()
    ensures r.IsDynamic() && r.pos.x == s.pos.x && Mo(r).canBe.up == Mo(s).canBe.up
    ensures Mo(r).prev == Mo(s).prev
    ensures SameSprite(s, r) && Mo(r).ySpeedMax == Mo(s).ySpeedMax
    ensures CollidesAt(s, Vec(s.pos.x, s.pos.y + Mo(s).ySpeed), solid) ==>
      r.onFloor && Mo(r).canBe == Mo(s).canBe.(down := false) && r.pos.y == Mo(s).prev.y
      && Mo(r).ground == r.Center().y && Mo(r).ySpeed == Mo(s).ySpeed + Mo(s).gravity
    ensures !CollidesAt(s, Vec(s.pos.x, s.pos.y + Mo(s).ySpeed), solid) ==>
      r.pos.y == s.pos.y + Mo(s).ySpeed && Mo(r).ySpeed == Mo(s).ySpeed + Mo(s).gravity
      && Mo(r).ground == Mo(s).ground && r.onFloor == s.onFloor && Mo(r).canBe == Mo(s).canBe
    ensures Mo(r).(canBe := Mo(s).canBe, ySpeed := Mo(s).ySpeed, ground := Mo(s).ground) == Mo(s)
  {
    var m := Mo(s);
    var t := WithMotion(SetCoords(s, Vec(s.pos.x, s.pos.y + m.ySpeed)), m.(ySpeed := m.ySpeed + m.gravity));
    if Collides(t, solid) then
      var back := SetCoords(t, Vec(t.pos.x, m.prev.y));
      WithMotion(back.(onFloor := true),
                 Mo(t).(canBe := m.canBe.(down := false), ground := back.Center().y))
    else t
  }

  /** `if up: ... elif down: ...` */
  function Vertical(s: Sprite, solid: seq<Sprite>): (r: Sprite)
    requires s.IsDynamic()
    ensures r.IsDynamic()
    ensures SameSprite(s, r)
    ensures Mo(r).prev == Mo(s).prev && Mo(r).ySpeedMax == Mo(s).ySpeedMax
  {
    if Mo(s).canBe.up then Ascend(s, solid)
    else if Mo(s).canBe.down then Descend(s, solid)
    else s
  }

  /** Some other collidable sprite is horizontally aligned with and vertically
      clear of `s` (the condition the fall scan tests for each sprite). */
  predicate SomethingApart(s: Sprite, solid: seq<Sprite>) {
    exists k :: 0 <= k < |solid| && solid[k].id != s.id
      && YApart(s.Bounds(), solid[k].Bounds()) && XAligned(s.Bounds(), solid[k].Bounds())
  }

  /** Start falling when neither rising nor falling and the scan finds a
      sprite above or below within the horizontal window. */
  function StartFalling(s: Sprite, solid: seq<Sprite>): (r: Sprite)
    requires s.IsDynamic()
    ensures r.IsDynamic() && r.pos == s.pos && r.onFloor == s.onFloor
    ensures SameSprite(s, r)
    ensures Mo(r).canBe.down <==> Mo(s).canBe.down || (!Mo(s).canBe.up && SomethingApart(s, solid))
    ensures Mo(r) == Mo(s) || Mo(r).ySpeed == Mo(s).ySpeedMax
    ensures Mo(r).ySpeedMax == Mo(s).ySpeedMax && Mo(r).canBe.up == Mo(s).canBe.up
    ensures Mo(r).prev == Mo(s).prev && Mo(r).ground == Mo(s).ground
    ensures Mo(r).(canBe := Mo(s).canBe, ySpeed := Mo(s).ySpeed) == Mo(s)
    ensures Mo(r).canBe.(down := Mo(s).canBe.down) == Mo(s).canBe
    ensures !(!Mo(s).canBe.down && !Mo(s).canBe.up && SomethingApart(s, solid)) ==> r == s
  {
    var m := Mo(s);
    if !m.canBe.down && !m.canBe.up && SomethingApart(s, solid) then
      WithMotion(s, m.(ySpeed := m.ySpeedMax, canBe := m.canBe.(down := true)))
    else s
  }

  /** The vertical speed never exceeds its initial value; upward (negative)
      speeds are not bounded. */
  function ClampSpeed(s: Sprite): (r: Sprite)
    requires s.IsDynamic()
    ensures r.IsDynamic() && r.pos == s.pos && r.onFloor == s.onFloor
    ensures SameSprite(s, r)
    ensures Mo(r).ySpeed <= Mo(r).ySpeedMax == Mo(s).ySpeedMax
    ensures Mo(r).ySpeed == Mo(s).ySpeed || Mo(r).ySpeed == Mo(s).ySpeedMax
    ensures Mo(r).ySpeed <= Mo(s).ySpeed
    ensures Mo(r).(ySpeed := Mo(s).ySpeed) == Mo(s)
  {
    var m := Mo(s);
    if m.ySpeed > m.ySpeedMax then WithMotion(s, m.(ySpeed := m.ySpeedMax)) else s
  }

  /** The movement part of `Dynamic.update` (everything before the portal
      and hazard checks). */
  function Move(s: Sprite, solid: seq<Sprite>): (r: Sprite)
    requires s.IsDynamic()
    ensures r.IsDynamic() && SameSprite(s, r)
    ensures Mo(r).ySpeed <= Mo(r).ySpeedMax == Mo(s).ySpeedMax
    ensures Mo(r).prev == s.pos
  {
    var a := Snapshot(s);
    var b := StepLeft(StepRight(a, solid), solid);
    ClampSpeed(StartFalling(Vertical(b, solid), solid))
  }

  // ---------------------------------------------------------------------
  // Properties of the movement phases
  // ---------------------------------------------------------------------

  /** Collision depends only on identity, position and size. */
  lemma CollidesSameBox(a: Sprite, b: Sprite, solid: seq<Sprite>)
    requires a.id == b.id && a.pos == b.pos && a.size == b.size
    ensures Collides(a, solid) <==> Collides(b, solid)
  {
    assert a.Bounds() == b.Bounds();
  }

  /** A horizontal step never leaves the sprite overlapping anything when
      both its current position and its snapshot are clear. */
  lemma {:induction false} StepsKeepClear(s: Sprite, solid: seq<Sprite>)
    requires s.IsDynamic() && s.pos.y == Mo(s).prev.y
    requires !Collides(s, solid) && !CollidesAt(s, Mo(s).prev, solid)
    ensures !Collides(StepRight(s, solid), solid)
    ensures !Collides(StepLeft(s, solid), solid)
  {
    var m := Mo(s);
    if m.canBe.right && !m.canBe.up {
      var t := SetCoords(s, Vec(s.pos.x + m.xSpeed as real, s.pos.y));
      if Collides(t, solid) {
        CollidesSameBox(SetCoords(t, Vec(m.prev.x, t.pos.y)), s.(pos := m.prev), solid);
      }
    }
    if m.canBe.left && !m.canBe.up {
      var t := SetCoords(s, Vec(s.pos.x - m.xSpeed as real, s.pos.y));
      if Collides(t, solid) {
        CollidesSameBox(SetCoords(t, Vec(m.prev.x, t.pos.y)), s.(pos := m.prev), solid);
      }
    }
  }

  lemma {:induction false} AirControlKeepsClear(s: Sprite, solid: seq<Sprite>)
    requires s.IsDynamic() && s.pos.x == Mo(s).prev.x && !Collides(s, solid)
    ensures !Collides(AirControl(s, solid), solid)
  {
    var r := AirControl(s, solid);
    if r.pos.x == s.pos.x {
      CollidesSameBox(r, s, solid);
    }
  }

  lemma {:induction false} RiseKeepsClear(s: Sprite, solid: seq<Sprite>)
    requires s.IsDynamic() && s.pos == Mo(s).prev && !Collides(s, solid)
    ensures !Collides(Rise(s, solid), solid)
  {
    var r := Rise(s, solid);
    if CollidesAt(s, Vec(s.pos.x, s.pos.y - Mo(s).ySpeed), solid) {
      CollidesSameBox(r, s, solid);
    }
  }

  lemma {:induction false} AscendKeepsClear(s: Sprite, solid: seq<Sprite>)
    requires s.IsDynamic() && s.pos == Mo(s).prev && !Collides(s, solid)
    ensures !Collides(Ascend(s, solid), solid)
  {
    RiseKeepsClear(s, solid);
    AirControlKeepsClear(Rise(s, solid), solid);
  }

  lemma {:induction false} DescendKeepsClear(s: Sprite, solid: seq<Sprite>)
    requires s.IsDynamic() && s.pos.y == Mo(s).prev.y && !Collides(s, solid)
    ensures !Collides(Descend(s, solid), solid)
  {
    var m := Mo(s);
    var t := WithMotion(SetCoords(s, Vec(s.pos.x, s.pos.y + m.ySpeed)), m.(ySpeed := m.ySpeed + m.gravity));
    if Collides(t, solid) {
      CollidesSameBox(Descend(s, solid), s, solid);
    }
  }

  lemma {:induction false} VerticalKeepsClear(s: Sprite, solid: seq<Sprite>)
    requires s.IsDynamic() && s.pos.y == Mo(s).prev.y
    requires Mo(s).canBe.up ==> s.pos.x == Mo(s).prev.x
    requires !Collides(s, solid)
    ensures !Collides(Vertical(s, solid), solid)
  {
    if Mo(s).canBe.up {
      AscendKeepsClear(s, solid);
    } else if Mo(s).canBe.down {
      DescendKeepsClear(s, solid);
    }
  }

  /** Collision resolution only ever undoes moves: a sprite that starts the
      tick clear of every collidable sprite is still clear after moving. */
  lemma {:induction false} MoveKeepsClear(s: Sprite, solid: seq<Sprite>)
    requires s.IsDynamic() && !Collides(s, solid)
    ensures !Collides(Move(s, solid), solid)
  {
    var a := Snapshot(s);
    CollidesSameBox(a, s, solid);
    CollidesSameBox(a.(pos := Mo(a).prev), s, solid);
    StepsKeepClear(a, solid);
    var b1 := StepRight(a, solid);
    CollidesSameBox(b1.(pos := Mo(b1).prev), s, solid);
    StepsKeepClear(b1, solid);
    var b := StepLeft(b1, solid);
    CollidesSameBox(b.(pos := Mo(b).prev), s, solid);
    VerticalKeepsClear(b, solid);
    var c := Vertical(b, solid);
    var d := StartFalling(c, solid);
    CollidesSameBox(d, c, solid);
    CollidesSameBox(ClampSpeed(d), d, solid);
  }

  /** A blocked walk keeps x where the tick found it. */
  lemma WalkRollback(s: Sprite, solid: seq<Sprite>)
    requires s.IsDynamic() && !Mo(s).canBe.up
    ensures Mo(s).canBe.right && !Mo(s).canBe.left
      && CollidesAt(s, Vec(s.pos.x + Mo(s).xSpeed as real, s.pos.y), solid)
      ==> Move(s, solid).pos.x == s.pos.x
    ensures Mo(s).canBe.left && !Mo(s).canBe.right
      && CollidesAt(s, Vec(s.pos.x - Mo(s).xSpeed as real, s.pos.y), solid)
      ==> Move(s, solid).pos.x == s.pos.x
  {
    var m := Mo(s);
    var a := Snapshot(s);
    var right := Vec(s.pos.x + m.xSpeed as real, s.pos.y);
    var left := Vec(s.pos.x - m.xSpeed as real, s.pos.y);
    CollidesSameBox(SetCoords(a, right), s.(pos := right), solid);
    CollidesSameBox(SetCoords(a, left), s.(pos := left), solid);
    var b := StepLeft(StepRight(a, solid), solid);
    assert m.canBe.right != m.canBe.left ==> b.pos.x == s.pos.x || !CollidesAt(s, if m.canBe.right then right else left, solid);
  }

  /** A blocked jump keeps y where the tick found it and ends the jump. */
  lemma JumpRollback(s: Sprite, solid: seq<Sprite>)
    requires s.IsDynamic() && Mo(s).canBe.up
    requires CollidesAt(s, Vec(s.pos.x, s.pos.y - Mo(s).ySpeed), solid)
    ensures Move(s, solid).pos.y == s.pos.y && !Mo(Move(s, solid)).canBe.up
  {
    var m := Mo(s);
    var a := Snapshot(s);
    var up := Vec(s.pos.x, s.pos.y - m.ySpeed);
    CollidesSameBox(a.(pos := up), s.(pos := up), solid);
    var b := StepLeft(StepRight(a, solid), solid);
    assert b == a;
    var u := Rise(b, solid);
    assert u.pos.y == s.pos.y && !Mo(u).canBe.up;
  }

  /** A blocked fall keeps y where the tick found it, lands the sprite and
      records its centre height as the ground. */
  lemma FallRollback(s: Sprite, solid: seq<Sprite>)
    requires s.IsDynamic() && !Mo(s).canBe.up && Mo(s).canBe.down
    requires !Mo(s).canBe.left && !Mo(s).canBe.right
    requires CollidesAt(s, Vec(s.pos.x, s.pos.y + Mo(s).ySpeed), solid)
    ensures Move(s, solid).pos == s.pos && Move(s, solid).onFloor
    ensures Mo(Move(s, solid)).ground == s.Center().y
  {
    var m := Mo(s);
    var a := Snapshot(s);
    var down := Vec(s.pos.x, s.pos.y + m.ySpeed);
    CollidesSameBox(a.(pos := down), s.(pos := down), solid);
    var b := StepLeft(StepRight(a, solid), solid);
    assert b == a;
    var c := Descend(b, solid);
    assert c.pos == s.pos && c.onFloor && Mo(c).ground == s.Center().y;
  }

  /** `elif`: a tick that enters the ascend branch never runs the descend
      branch, so falling state, ground and floor contact are untouched. */
  lemma AscendExcludesDescend(s: Sprite, solid: seq<Sprite>)
    requires s.IsDynamic() && Mo(s).canBe.up
    ensures var r := Vertical(s, solid);
      Mo(r).canBe.down == Mo(s).canBe.down && Mo(r).ground == Mo(s).ground && r.onFloor == s.onFloor
  {
  }

  // ---------------------------------------------------------------------
  // Portals (`on_portal`)
  // ---------------------------------------------------------------------

  predicate IsPortalFor(s: Sprite, p: Sprite) {
    p.id != s.id && p.kind.Portal?
  }

  /** The latch-clearing condition: horizontally aligned with the portal
      and vertically clear of it. */
  predicate LeavingPortal(s: Sprite, p: Sprite) {
    XAligned(s.Bounds(), p.Bounds()) && YApart(s.Bounds(), p.Bounds())
  }

  /** This portal teleports `s` now: overlapping it with the latch open. */
  predicate Teleporting(s: Sprite, p: Sprite)
    requires s.IsDynamic()
  {
    IsPortalFor(s, p) && Overlap(s.Bounds(), p.Bounds()) && !Mo(s).onPortal
  }

  /** One iteration of the portal scan. */
  function PortalStep(s: Sprite, p: Sprite): (r: Sprite)
    requires s.IsDynamic()
    ensures r.IsDynamic() && SameSprite(s, r)
    ensures r == WithMotion(s.(pos := r.pos), Mo(s).(onPortal := Mo(r).onPortal))
    ensures Teleporting(s, p) ==> r.pos == p.kind.twin && Mo(r).onPortal
    ensures !Teleporting(s, p) ==> r.pos == s.pos
    ensures !Teleporting(s, p) ==>
      (Mo(r).onPortal <==> Mo(s).onPortal && !(IsPortalFor(s, p) && !Overlap(s.Bounds(), p.Bounds()) && LeavingPortal(s, p)))
  {
    if !IsPortalFor(s, p) then s
    else if Overlap(s.Bounds(), p.Bounds()) then
      if !Mo(s).onPortal then WithMotion(SetCoords(s, p.kind.twin), Mo(s).(onPortal := true)) else s
    else if LeavingPortal(s, p) then WithMotion(s, Mo(s).(onPortal := false))
    else s
  }

  /** `on_portal`: the scan over every sprite of the scene, in order.  Only
      the position and the latch can change, and the sprite ends either
      where it was or on the twin coordinates of one of the portals. */
  function OnPortal(s: Sprite, scene: seq<Sprite>): (r: Sprite)
    requires s.IsDynamic()
    ensures r.IsDynamic() && SameSprite(s, r)
    ensures r == WithMotion(s.(pos := r.pos), Mo(s).(onPortal := Mo(r).onPortal))
    ensures r.pos == s.pos
         || exists k :: 0 <= k < |scene| && IsPortalFor(s, scene[k]) && r.pos == scene[k].kind.twin
    decreases |scene|
  {
    if |scene| == 0 then s
    else
      var t := PortalStep(s, scene[0]);
      var r := OnPortal(t, scene[1..]);
      assert r.pos != s.pos && r.pos != t.pos ==>
        exists k :: 0 <= k < |scene[1..]| && IsPortalFor(s, scene[1..][k]) && r.pos == scene[1..][k].kind.twin;
      r
  }

  /** Portals of the scene other than `s`. */
  function PortalCount(s: Sprite, scene: seq<Sprite>): nat
    decreases |scene|
  {
    if |scene| == 0 then 0
    else (if IsPortalFor(s, scene[0]) then 1 else 0) + PortalCount(s, scene[1..])
  }

  /** Number of teleports during one scan. */
  ghost function Teleports(s: Sprite, scene: seq<Sprite>): nat
    requires s.IsDynamic()
    decreases |scene|
  {
    if |scene| == 0 then 0
    else (if Teleporting(s, scene[0]) then 1 else 0) + Teleports(PortalStep(s, scene[0]), scene[1..])
  }

  lemma {:induction false} PortalCountById(s: Sprite, t: Sprite, scene: seq<Sprite>)
    requires s.id == t.id
    ensures PortalCount(s, scene) == PortalCount(t, scene)
    decreases |scene|
  {
    if |scene| > 0 {
      PortalCountById(s, t, scene[1..]);
    }
  }

  /** A teleport closes the latch, and only a later portal that the sprite
      is leaving can reopen it; so a scan teleports at most once per two
      portals. */
  lemma {:induction false} TeleportBound(s: Sprite, scene: seq<Sprite>)
    requires s.IsDynamic()
    ensures Teleports(s, scene) <= (PortalCount(s, scene) + (if Mo(s).onPortal then 0 else 1)) / 2
    decreases |scene|
  {
    if |scene| > 0 {
      var t := PortalStep(s, scene[0]);
      TeleportBound(t, scene[1..]);
      PortalCountById(s, t, scene[1..]);
    }
  }

  /** With the two portals a level has, one scan teleports at most once. */
  lemma AtMostOneTeleport(s: Sprite, scene: seq<Sprite>)
    requires s.IsDynamic() && PortalCount(s, scene) <= 2
    ensures Teleports(s, scene) <= 1
  {
    TeleportBound(s, scene);
  }

  /** A scan that teleports nowhere leaves the sprite where it was. */
  lemma {:induction false} NoTeleportStays(s: Sprite, scene: seq<Sprite>)
    requires s.IsDynamic() && Teleports(s, scene) == 0
    ensures OnPortal(s, scene).pos == s.pos
    decreases |scene|
  {
    if |scene| > 0 {
      NoTeleportStays(PortalStep(s, scene[0]), scene[1..]);
    }
  }

  /** A scan that teleports once puts the sprite on the twin coordinates of
      a portal it overlapped where it stood when the scan began. */
  lemma {:induction false} OneTeleportLandsOnTwin(s: Sprite, scene: seq<Sprite>)
    requires s.IsDynamic() && Teleports(s, scene) == 1
    ensures exists k :: 0 <= k < |scene| && IsPortalFor(s, scene[k]) && Overlap(s.Bounds(), scene[k].Bounds())
                        && OnPortal(s, scene).pos == scene[k].kind.twin
    decreases |scene|
  {
    var t := PortalStep(s, scene[0]);
    if Teleporting(s, scene[0]) {
      NoTeleportStays(t, scene[1..]);
      assert OnPortal(s, scene).pos == scene[0].kind.twin;
    } else {
      OneTeleportLandsOnTwin(t, scene[1..]);
      assert t.Bounds() == s.Bounds();
      var k :| 0 <= k < |scene[1..]| && IsPortalFor(t, scene[1..][k]) && Overlap(t.Bounds(), scene[1..][k].Bounds())
               && OnPortal(t, scene[1..]).pos == scene[1..][k].kind.twin;
      assert scene[1..][k] == scene[k + 1];
    }
  }

  /** With the latch open, overlapping a portal `scene[k]` makes the scan
      teleport at least once (at that portal or at an earlier one). */
  lemma {:induction false} TeleportsWhenOverlapping(s: Sprite, scene: seq<Sprite>, k: nat)
    requires s.IsDynamic() && !Mo(s).onPortal
    requires k < |scene| && IsPortalFor(s, scene[k]) && Overlap(s.Bounds(), scene[k].Bounds())
    ensures Teleports(s, scene) >= 1
    decreases k
  {
    if !Teleporting(s, scene[0]) {
      assert PortalStep(s, scene[0]) == s;
      assert scene[1..][k - 1] == scene[k];
      TeleportsWhenOverlapping(s, scene[1..], k - 1);
    }
  }

  /** The portal scan with a level's two portals: the sprite stays put or
      lands on the twin coordinates of a portal it overlapped; and with the
      latch open, overlapping a portal is enough to be moved to the twin
      coordinates of an overlapped portal. */
  lemma PortalScan(s: Sprite, scene: seq<Sprite>)
    requires s.IsDynamic() && PortalCount(s, scene) <= 2
    ensures OnPortal(s, scene).pos == s.pos
         || exists k :: 0 <= k < |scene| && IsPortalFor(s, scene[k]) && Overlap(s.Bounds(), scene[k].Bounds())
                        && OnPortal(s, scene).pos == scene[k].kind.twin
    ensures !Mo(s).onPortal
         && (exists k :: 0 <= k < |scene| && IsPortalFor(s, scene[k]) && Overlap(s.Bounds(), scene[k].Bounds()))
         ==> exists k :: 0 <= k < |scene| && IsPortalFor(s, scene[k]) && Overlap(s.Bounds(), scene[k].Bounds())
                         && OnPortal(s, scene).pos == scene[k].kind.twin
  {
    AtMostOneTeleport(s, scene);
    if Teleports(s, scene) == 0 {
      NoTeleportStays(s, scene);
      if !Mo(s).onPortal && exists k :: 0 <= k < |scene| && IsPortalFor(s, scene[k]) && Overlap(s.Bounds(), scene[k].Bounds()) {
        var k :| 0 <= k < |scene| && IsPortalFor(s, scene[k]) && Overlap(s.Bounds(), scene[k].Bounds());
        TeleportsWhenOverlapping(s, scene, k);
        assert false;
      }
    } else {
      OneTeleportLandsOnTwin(s, scene);
    }
  }

  /** While the latch is closed and the sprite is not leaving any portal,
      the scan changes nothing, however many portals it overlaps. */
  lemma {:induction false} LatchHolds(s: Sprite, scene: seq<Sprite>)
    requires s.IsDynamic() && Mo(s).onPortal
    requires forall k :: 0 <= k < |scene| && IsPortalFor(s, scene[k]) ==> !LeavingPortal(s, scene[k])
    ensures OnPortal(s, scene) == s
    decreases |scene|
  {
    if |scene| > 0 {
      assert PortalStep(s, scene[0]) == s;
      LatchHolds(s, scene[1..]);
    }
  }

  /** The latch is reopened only by a portal the sprite is horizontally
      aligned with, vertically clear of, and therefore not overlapping. */
  lemma LatchReleasedOnlyWhenLeaving(s: Sprite, scene: seq<Sprite>)
    requires s.IsDynamic() && Mo(s).onPortal && !Mo(OnPortal(s, scene)).onPortal
    ensures exists k :: 0 <= k < |scene| && IsPortalFor(s, scene[k]) && LeavingPortal(s, scene[k])
                        && !Overlap(s.Bounds(), scene[k].Bounds())
  {
    if forall k :: 0 <= k < |scene| && IsPortalFor(s, scene[k]) ==> !LeavingPortal(s, scene[k]) {
      LatchHolds(s, scene);
      assert false;
    }
  }

  /** The converse: when no portal of the scene overlaps the sprite, the
      scan leaves it where it is, never closes the latch, and opens it if
      some portal is being left. */
  lemma {:induction false} LatchReleasedWhenLeaving(s: Sprite, scene: seq<Sprite>)
    requires s.IsDynamic()
    requires forall k :: 0 <= k < |scene| && IsPortalFor(s, scene[k]) ==> !Overlap(s.Bounds(), scene[k].Bounds())
    ensures OnPortal(s, scene).pos == s.pos
    ensures !Mo(s).onPortal ==> !Mo(OnPortal(s, scene)).onPortal
    ensures (exists k :: 0 <= k < |scene| && IsPortalFor(s, scene[k]) && LeavingPortal(s, scene[k])) ==>
      !Mo(OnPortal(s, scene)).onPortal
    decreases |scene|
  {
    if |scene| > 0 {
      var t := PortalStep(s, scene[0]);
      var rest := scene[1..];
      assert t.pos == s.pos && t.Bounds() == s.Bounds();
      forall k | 0 <= k < |rest| && IsPortalFor(t, rest[k])
        ensures !Overlap(t.Bounds(), rest[k].Bounds())
      {
        assert rest[k] == scene[k + 1];
      }
      LatchReleasedWhenLeaving(t, rest);
      if exists k :: 0 <= k < |scene| && IsPortalFor(s, scene[k]) && LeavingPortal(s, scene[k]) {
        var k :| 0 <= k < |scene| && IsPortalFor(s, scene[k]) && LeavingPortal(s, scene[k]);
        if k == 0 {
          assert !Mo(t).onPortal;
        } else {
          assert rest[k - 1] == scene[k];
          assert IsPortalFor(t, rest[k - 1]) && LeavingPortal(t, rest[k - 1]);
        }
      }
    }
  }

  // ---------------------------------------------------------------------
  // Hazards (`in_danger`)
  // ---------------------------------------------------------------------

  /** `p` is another sprite that overlaps `s` and is dangerous. */
  predicate Hazard(s: Sprite, p: Sprite) {
    p.id != s.id && Overlap(s.Bounds(), p.Bounds()) && p.danger
  }

  function HazardCount(s: Sprite, scene: seq<Sprite>): (n: nat)
    ensures n > 0 <==> exists k :: 0 <= k < |scene| && Hazard(s, scene[k])
    decreases |scene|
  {
    if |scene| == 0 then 0
    else
      var n := HazardCount(s, scene[1..]);
      assert n > 0 ==> exists k :: 0 <= k < |scene[1..]| && Hazard(s, scene[1..][k]);
      (if Hazard(s, scene[0]) then 1 else 0) + n
  }

  /** `die` called `n` times in a row. */
  function DieTimes(reg: Registry, id: Id, n: nat): (r: Registry)
    requires WellFormed(reg)
    ensures WellFormed(r)
    decreases n
  {
    if n == 0 then reg else DieTimes(Die(reg, id), id, n - 1)
  }

  /** Because `die` toggles, dying an even number of times restores every
      group and an odd number of times is the same as dying once. */
  lemma {:induction false} DieTimesParity(reg: Registry, id: Id, n: nat)
    requires WellFormed(reg)
    ensures DieTimes(reg, id, n) == if n % 2 == 0 then reg else Die(reg, id)
    decreases n
  {
    if n >= 2 {
      var once := Die(reg, id);
      var twice := Die(once, id);
      DieTwiceRestores(reg, id);
      assert twice == reg;
      assert DieTimes(reg, id, n) == DieTimes(once, id, n - 1);
      assert DieTimes(once, id, n - 1) == DieTimes(twice, id, n - 2);
      DieTimesParity(reg, id, n - 2);
      ParityStep(n - 2);
      ParityStep(n - 1);
      assert (n - 2) % 2 == n % 2;
    } else if n == 1 {
      assert DieTimes(reg, id, 1) == DieTimes(Die(reg, id), id, 0);
    }
  }

  /** `in_danger`: every overlapping dangerous sprite marks `s` dead and
      calls `die`; the sprite dies exactly when some hazard overlaps it. */
  function InDanger(s: Sprite, scene: seq<Sprite>, reg: Registry): (r: (Sprite, Registry))
    requires WellFormed(reg)
    ensures r.0 == s.(dead := r.0.dead)
    ensures r.0.dead <==> s.dead || HazardCount(s, scene) > 0
    ensures r.1 == DieTimes(reg, s.id, HazardCount(s, scene))
    decreases |scene|
  {
    if |scene| == 0 then (s, reg)
    else if Hazard(s, scene[0]) then
      var d := s.(dead := true);
      HazardCountById(d, s, scene[1..]);
      InDanger(d, scene[1..], Die(reg, s.id))
    else
      InDanger(s, scene[1..], reg)
  }

  lemma {:induction false} HazardCountById(a: Sprite, b: Sprite, scene: seq<Sprite>)
    requires a.id == b.id && a.Bounds() == b.Bounds()
    ensures HazardCount(a, scene) == HazardCount(b, scene)
    decreases |scene|
  {
    if |scene| > 0 {
      HazardCountById(a, b, scene[1..]);
    }
  }

  /** Touching two hazards in one tick kills the sprite but leaves every
      group exactly as it was: the second `die` re-inserts it. */
  lemma TwoHazardsKeepMembership(s: Sprite, scene: seq<Sprite>, reg: Registry)
    requires WellFormed(reg) && HazardCount(s, scene) == 2
    ensures InDanger(s, scene, reg).0.dead
    ensures InDanger(s, scene, reg).1 == reg
  {
    DieTimesParity(reg, s.id, 2);
  }

  // ---------------------------------------------------------------------
  // The exit (`Player.check_on_prize`)
  // ---------------------------------------------------------------------

  /** The exit test: a prize within half the usual horizontal window and the
      usual vertical one. */
  predicate AtPrize(s: Sprite, p: Sprite) {
    var a := s.Bounds();
    var b := p.Bounds();
    p.id != s.id && p.kind.Prize?
    && Abs(a.Center().x - b.Center().x) < ((a.HalfX() + b.HalfX()) / 2) as real
    && Abs(a.Center().y - b.Center().y) < (a.HalfY() + b.HalfY()) as real
  }

  /** Standing at the exit implies overlapping it. */
  lemma AtPrizeOverlaps(s: Sprite, p: Sprite)
    requires AtPrize(s, p)
    ensures Overlap(s.Bounds(), p.Bounds())
  {
  }

  /** `check_on_prize`: sets the flag when some prize is within the window;
      the flag is never cleared and nothing else changes. */
  function CheckOnPrize(s: Sprite, scene: seq<Sprite>): (r: Sprite)
    requires s.kind.Player?
    ensures r.kind.Player? && r == s.(kind := s.kind.(onPrize := r.kind.onPrize))
    ensures r.kind.onPrize <==> s.kind.onPrize || exists k :: 0 <= k < |scene| && AtPrize(s, scene[k])
    decreases |scene|
  {
    if |scene| == 0 then s
    else
      var t := if AtPrize(s, scene[0]) then s.(kind := s.kind.(onPrize := true)) else s;
      assert forall p :: AtPrize(t, p) == AtPrize(s, p);
      var r := CheckOnPrize(t, scene[1..]);
      assert (exists k :: 0 <= k < |scene[1..]| && AtPrize(s, scene[1..][k])) ==>
        exists k :: 0 <= k < |scene| && AtPrize(s, scene[k]);
      r
  }

  // ---------------------------------------------------------------------
  // The whole tick
  // ---------------------------------------------------------------------

  /** `Dynamic.update`: move, then the portal scan, then the hazard check.
      The vertical speed stays clamped, and a dying sprite is one that
      overlaps a hazard where the tick leaves it. */
  function Update(s: Sprite, solid: seq<Sprite>, scene: seq<Sprite>, reg: Registry): (r: (Sprite, Registry))
    requires s.IsDynamic() && WellFormed(reg)
    ensures r.0.IsDynamic() && r.0.id == s.id && WellFormed(r.1)
    ensures Mo(r.0).ySpeed <= Mo(r.0).ySpeedMax == Mo(s).ySpeedMax
    ensures r.0.dead <==> s.dead || HazardCount(r.0, scene) > 0
    ensures r.1 == DieTimes(reg, s.id, HazardCount(r.0, scene))
  {
    var m := Move(s, solid);
    var p := OnPortal(m, scene);
    assert Mo(p) == Mo(m).(onPortal := Mo(p).onPortal);
    var d := InDanger(p, scene, reg);
    assert Mo(d.0) == Mo(p);
    HazardCountById(d.0, p, scene);
    d
  }

  /** `Player.update`: the dynamic update followed by the exit check. */
  function PlayerUpdate(s: Sprite, solid: seq<Sprite>, scene: seq<Sprite>, reg: Registry): (r: (Sprite, Registry))
    requires s.kind.Player? && WellFormed(reg)
    ensures r.0.kind.Player? && r.0.id == s.id && r.1 == Update(s, solid, scene, reg).1
    ensures Mo(r.0).ySpeed <= Mo(r.0).ySpeedMax
    ensures s.kind.onPrize ==> r.0.kind.onPrize
    ensures r.0.kind.onPrize <==>
      s.kind.onPrize || exists k :: 0 <= k < |scene| && AtPrize(Update(s, solid, scene, reg).0, scene[k])
  {
    var u := Update(s, solid, scene, reg);
    (CheckOnPrize(u.0, scene), u.1)
  }
}

=== FILE: rotation.dfy ===
/** Turning the level by a quarter (`rotate_grid`).

    The grid produced by `place_to_grid` is copied into a fresh square grid
    of the same size.  Turning right, cell `[i][k]` of the new grid is old
    cell `[n-1-k][i]`; turning left, new cell `[k][i]` is old cell
    `[i][n-1-k]`.  Any other side leaves the new grid empty.  The sprites
    are then animated towards their new cells. */
module Rotation {
  import opened Options
  import opened Entities
  import opened Snapping
  import opened Smoothing

  /** The `side` argument: the game passes "right" or "left"; any other
      string selects neither branch. */
  datatype Side = Right | Left | Other

  /** Reference definition of the clockwise quarter turn. */
  function RotateRight(g: Grid): (r: Grid)
    requires IsSquare(g, |g|)
    ensures IsSquare(r, |g|)
  {
    var n := |g|;
    seq(n, i requires 0 <= i < n => seq(n, k requires 0 <= k < n => g[n - 1 - k][i]))
  }

  /** Reference definition of the counter-clockwise quarter turn. */
  function RotateLeft(g: Grid): (r: Grid)
    requires IsSquare(g, |g|)
    ensures IsSquare(r, |g|)
  {
    var n := |g|;
    seq(n, k requires 0 <= k < n => seq(n, i requires 0 <= i < n => g[i][n - 1 - k]))
  }

  function Rotated(side: Side, g: Grid): (r: Grid)
    requires IsSquare(g, |g|)
    ensures IsSquare(r, |g|)
  {
    match side
    case Right => RotateRight(g)
    case Left => RotateLeft(g)
    case Other => EmptyGrid(|g|)
  }

  /** The copying loops of `rotate_grid`: `j` runs over the old columns from
      the last to the first while `k` counts up, and `i` runs over the rows.
      Turning right, new `[i][k]` is old `[n-1-k][i]`; turning left, new
      `[k][i]` is old `[i][n-1-k]`; any other side gives an empty grid. */
  method RotateCells(side: Side, grid: Grid) returns (temp: Grid)
    requires IsSquare(grid, |grid|)
    ensures IsSquare(temp, |grid|)
    ensures side == Right ==> forall i, k :: 0 <= i < |grid| && 0 <= k < |grid| ==>
      temp[i][k] == grid[|grid| - 1 - k][i]
    ensures side == Left ==> forall k, i :: 0 <= k < |grid| && 0 <= i < |grid| ==>
      temp[k][i] == grid[i][|grid| - 1 - k]
    ensures side == Other ==> forall i, k :: 0 <= i < |grid| && 0 <= k < |grid| ==> temp[i][k] == None
    ensures temp == Rotated(side, grid)
  {
    var n := |grid|;
    temp := EmptyGrid(n);
    var k := 0;
    if side == Right {
      var j := n - 1;
      while j >= 0
        invariant -1 <= j <= n - 1 && k == n - 1 - j
        invariant IsSquare(temp, n)
        invariant forall a, b :: 0 <= a < n && 0 <= b < n ==>
          temp[a][b] == if b < k then RotateRight(grid)[a][b] else None
      {
        var i := 0;
        while i < n
          invariant 0 <= i <= n
          invariant IsSquare(temp, n)
          invariant forall a, b :: 0 <= a < n && 0 <= b < n ==>
            temp[a][b] == if b < k || (b == k && a < i) then RotateRight(grid)[a][b] else None
        {
          temp := SetCell(temp, i, k, grid[j][i]);
          i := i + 1;
        }
        k := k + 1;
        j := j - 1;
      }
    } else if side == Left {
      var j := n - 1;
      while j >= 0
        invariant -1 <= j <= n - 1 && k == n - 1 - j
        invariant IsSquare(temp, n)
        invariant forall a, b :: 0 <= a < n && 0 <= b < n ==>
          temp[a][b] == if a < k then RotateLeft(grid)[a][b] else None
      {
        var i := 0;
        while i < n
          invariant 0 <= i <= n
          invariant IsSquare(temp, n)
          invariant forall a, b :: 0 <= a < n && 0 <= b < n ==>
            temp[a][b] == if a < k || (a == k && b < i) then RotateLeft(grid)[a][b] else None
        {
          temp := SetCell(temp, k, i, grid[i][j]);
          i := i + 1;
        }
        k := k + 1;
        j := j - 1;
      }
    }
    GridExtensional(temp, Rotated(side, grid));
  }

  /** Two square grids of the same size with the same cells are equal. */
  lemma GridExtensional(a: Grid, b: Grid)
    requires IsSquare(a, |a|) && IsSquare(b, |a|)
    requires forall i, j :: 0 <= i < |a| && 0 <= j < |a| ==> a[i][j] == b[i][j]
    ensures a == b
  {
    forall i | 0 <= i < |a| ensures a[i] == b[i] {
      assert forall j :: 0 <= j < |a| ==> a[i][j] == b[i][j];
    }
  }

  /** Turning left undoes turning right. */
  lemma LeftUndoesRight(g: Grid)
    requires IsSquare(g, |g|)
    ensures RotateLeft(RotateRight(g)) == g
  {
    GridExtensional(RotateLeft(RotateRight(g)), g);
  }

  /** Turning right undoes turning left. */
  lemma RightUndoesLeft(g: Grid)
    requires IsSquare(g, |g|)
    ensures RotateRight(RotateLeft(g)) == g
  {
    GridExtensional(RotateRight(RotateLeft(g)), g);
  }

  /** Two right turns flip the grid through its centre. */
  lemma HalfTurn(g: Grid)
    requires IsSquare(g, |g|)
    ensures forall i, j :: 0 <= i < |g| && 0 <= j < |g| ==>
      RotateRight(RotateRight(g))[i][j] == g[|g| - 1 - i][|g| - 1 - j]
  {
  }

  /** Four right turns give the grid back. */
  lemma FourRightTurns(g: Grid)
    requires IsSquare(g, |g|)
    ensures RotateRight(RotateRight(RotateRight(RotateRight(g)))) == g
  {
    var n := |g|;
    var h := RotateRight(RotateRight(g));
    HalfTurn(g);
    var f := RotateRight(RotateRight(h));
    HalfTurn(h);
    forall i, j | 0 <= i < n && 0 <= j < n ensures f[i][j] == g[i][j] {
      assert f[i][j] == h[n - 1 - i][n - 1 - j];
    }
    GridExtensional(f, g);
  }

  /** A right turn of a two-by-two grid: `[[A, ''], ['', B]]` becomes
      `[['', A], [B, '']]`. */
  lemma RightTurnExample(a: Id, b: Id)
    ensures RotateRight([[Some(a), None], [None, Some(b)]]) == [[None, Some(a)], [Some(b), None]]
  {
    var g: Grid := [[Some(a), None], [None, Some(b)]];
    var r := RotateRight(g);
    assert r[0] == [g[1][0], g[0][0]];
    assert r[1] == [g[1][1], g[0][1]];
  }

  /** Where a turn sends the sprite of old cell `(i, j)`: turning right, to
      `(j, n-1-i)`; turning left, to `(n-1-j, i)`. */
  function Destination(side: Side, n: int, i: int, j: int): (int, int) {
    match side
    case Right => (j, n - 1 - i)
    case Left => (n - 1 - j, i)
    case Other => (i, j)
  }

  /** The old cell whose content lands in new cell `(a, b)`. */
  function Source(side: Side, n: int, a: int, b: int): (int, int) {
    match side
    case Right => (n - 1 - b, a)
    case Left => (b, n - 1 - a)
    case Other => (a, b)
  }

  /** The content of old cell `(i, j)` lands on its destination. */
  lemma DestinationCell(side: Side, g: Grid, i: int, j: int)
    requires IsSquare(g, |g|) && side != Other && 0 <= i < |g| && 0 <= j < |g|
    ensures var d := Destination(side, |g|, i, j);
      0 <= d.0 < |g| && 0 <= d.1 < |g| && Rotated(side, g)[d.0][d.1] == g[i][j]
  {
  }

  /** New cell `(a, b)` is filled from its source, whose destination it is. */
  lemma SourceCell(side: Side, g: Grid, a: int, b: int)
    requires IsSquare(g, |g|) && side != Other && 0 <= a < |g| && 0 <= b < |g|
    ensures var s := Source(side, |g|, a, b);
      && 0 <= s.0 < |g| && 0 <= s.1 < |g| && Rotated(side, g)[a][b] == g[s.0][s.1]
      && Destination(side, |g|, s.0, s.1) == (a, b)
  {
  }

  /** A turn moves the content of each old cell to its destination, and
      every new cell is filled from its source. */
  lemma TurnMovesCells(side: Side, g: Grid)
    requires IsSquare(g, |g|) && side != Other
    ensures forall i, j :: 0 <= i < |g| && 0 <= j < |g| ==>
      var d := Destination(side, |g|, i, j);
      0 <= d.0 < |g| && 0 <= d.1 < |g| && Rotated(side, g)[d.0][d.1] == g[i][j]
    ensures forall a, b :: 0 <= a < |g| && 0 <= b < |g| ==>
      var s := Source(side, |g|, a, b);
      && 0 <= s.0 < |g| && 0 <= s.1 < |g| && Rotated(side, g)[a][b] == g[s.0][s.1]
      && Destination(side, |g|, s.0, s.1) == (a, b)
  {
    forall i, j | 0 <= i < |g| && 0 <= j < |g|
      ensures var d := Destination(side, |g|, i, j);
        0 <= d.0 < |g| && 0 <= d.1 < |g| && Rotated(side, g)[d.0][d.1] == g[i][j]
    {
      DestinationCell(side, g, i, j);
    }
    forall a, b | 0 <= a < |g| && 0 <= b < |g|
      ensures var s := Source(side, |g|, a, b);
        && 0 <= s.0 < |g| && 0 <= s.1 < |g| && Rotated(side, g)[a][b] == g[s.0][s.1]
        && Destination(side, |g|, s.0, s.1) == (a, b)
    {
      SourceCell(side, g, a, b);
    }
  }

  /** The same sprites are on the grid before and after a left or right
      turn. */
  lemma TurnKeepsSprites(side: Side, g: Grid)
    requires IsSquare(g, |g|) && side != Other
    ensures forall id :: Occurs(Rotated(side, g), id) <==> Occurs(g, id)
  {
    var n := |g|;
    var r := Rotated(side, g);
    forall id: Id | Occurs(r, id) ensures Occurs(g, id) {
      var a, b :| 0 <= a < n && 0 <= b < n && r[a][b] == Some(id);
      SourceCell(side, g, a, b);
      var s := Source(side, n, a, b);
      assert g[s.0][s.1] == Some(id);
    }
    forall id: Id | Occurs(g, id) ensures Occurs(r, id) {
      var i, j :| 0 <= i < n && 0 <= j < n && g[i][j] == Some(id);
      DestinationCell(side, g, i, j);
      var d := Destination(side, n, i, j);
      assert r[d.0][d.1] == Some(id);
    }
  }

  /** A turn puts no sprite into two cells that was in one before. */
  lemma TurnKeepsUnique(side: Side, g: Grid)
    requires IsSquare(g, |g|) && side != Other && Unique(g)
    ensures Unique(Rotated(side, g))
  {
    var n := |g|;
    var r: Grid := Rotated(side, g);
    forall a: int, b: int, a': int, b': int |
        0 <= a < n && 0 <= b < n && 0 <= a' < n && 0 <= b' < n && r[a][b].Some? && r[a][b] == r[a'][b']
      ensures a == a' && b == b'
    {
      SourceCell(side, g, a, b);
      SourceCell(side, g, a', b');
    }
  }

  /** In pixels, turning right sends the corner `(x, y)` of a cell to
      `((n-1)*C - y, x)`, and turning left to `(y, (n-1)*C - x)`: a quarter
      turn of the picture about the centre of the grid. */
  lemma DestinationIsQuarterTurn(n: int, c: int, i: int, j: int)
    ensures var p := CellPos(i, j, c);
      var (a, b) := Destination(Right, n, i, j);
      CellPos(a, b, c) == Vec(((n - 1) * c) as real - p.y, p.x)
    ensures var p := CellPos(i, j, c);
      var (a, b) := Destination(Left, n, i, j);
      CellPos(a, b, c) == Vec(p.y, ((n - 1) * c) as real - p.x)
  {
    assert (n - 1 - i) * c == (n - 1) * c - i * c;
    assert (n - 1 - j) * c == (n - 1) * c - j * c;
  }

  /** Sprite `id` has gone from its place in `before` to where the
      animation leaves it on the way to the destination of a cell of the old
      `grid` that holds it. */
  ghost predicate GlidedToDestination(before: map<Id, Sprite>, after: map<Id, Sprite>, grid: Grid, side: Side,
                                      c: int, id: Id)
    requires IsSquare(grid, |grid|)
  {
    && id in before && id in after
    && exists i, j ::
         && 0 <= i < |grid| && 0 <= j < |grid| && grid[i][j] == Some(id)
         && after[id].pos == GlidePos(before[id].pos, CellPos(Destination(side, |grid|, i, j).0,
                                                              Destination(side, |grid|, i, j).1, c), Steps)
  }

  /** `rotate_grid(side, grid)`: the grid is turned and the sprites glide
      towards their new cells.  Turning left or right, every sprite of the
      old grid is taken off the floor and glides from where it stands
      towards the destination of a cell it occupied, and only sprites of the
      grid move; any other side moves nobody.  Either way the portals end up
      pointing at each other.  The grid is the one `place_to_grid` builds,
      `700 // C` cells a side, and a turn reads its first row, so turning
      needs at least one cell. */
  method RotateGrid(side: Side, grid: Grid, world: map<Id, Sprite>, c: int, portals: Option<(Id, Id)>)
    returns (r: map<Id, Sprite>)
    requires c >= 1 && IsSquare(grid, Cells(c)) && Animatable(world, grid, portals)
    requires side != Other ==> |grid| >= 1
    ensures r.Keys == world.Keys
    ensures side != Other ==> forall id :: Occurs(grid, id) ==>
      !r[id].onFloor && GlidedToDestination(world, r, grid, side, c, id)
    ensures forall id :: id in world && (side == Other || !Occurs(grid, id)) ==> r[id].pos == world[id].pos
    ensures forall id :: id in world && (side == Other || !Occurs(grid, id)) ==> r[id].onFloor == world[id].onFloor
    ensures forall id :: id in world ==>
      r[id] == world[id].(onFloor := r[id].onFloor, pos := r[id].pos, kind := r[id].kind)
    ensures forall id :: id in world && (portals.None? || (id != portals.value.0 && id != portals.value.1)) ==>
      r[id].kind == world[id].kind
    ensures portals.Some? ==> r[portals.value.0].kind.Portal? && r[portals.value.1].kind.Portal?
    ensures portals.Some? ==>
      && r[portals.value.0].kind.twin == r[portals.value.1].pos
      && r[portals.value.1].kind.twin == r[portals.value.0].pos
  {
    var temp := RotateCells(side, grid);
    if side != Other {
      TurnKeepsSprites(side, grid);
    } else {
      assert forall id :: !Occurs(temp, id);
    }
    r := SmoothMovement(world, temp, c, portals);
    if side != Other {
      // A sprite glided to a cell of the turned grid; that cell is the
      // destination of the cell it came from.
      forall id | Occurs(grid, id) ensures GlidedToDestination(world, r, grid, side, c, id) {
        assert Occurs(temp, id) && GlidedToCell(world, r, temp, c, id);
        var a, b :| 0 <= a < |temp| && 0 <= b < |temp| && temp[a][b] == Some(id)
          && r[id].pos == GlidePos(world[id].pos, CellPos(a, b, c), Steps);
        GlidedFromSource(side, grid, world, r, c, id, a, b);
      }
    }
  }

  /** A sprite that glided to cell (a, b) of the turned grid glided to the
      destination of the cell of the old grid it came from. */
  lemma GlidedFromSource(side: Side, grid: Grid, before: map<Id, Sprite>, after: map<Id, Sprite>, c: int, id: Id, a: int, b: int)
    requires IsSquare(grid, |grid|) && side != Other && id in before && id in after
    requires 0 <= a < |grid| && 0 <= b < |grid| && Rotated(side, grid)[a][b] == Some(id)
    requires after[id].pos == GlidePos(before[id].pos, CellPos(a, b, c), Steps)
    ensures GlidedToDestination(before, after, grid, side, c, id)
  {
    SourceCell(side, grid, a, b);
    var src := Source(side, |grid|, a, b);
    assert grid[src.0][src.1] == Some(id) && Destination(side, |grid|, src.0, src.1) == (a, b);
  }
}

=== FILE: smoothing.dfy ===
/** The animation that follows a rotation (`smooth_movement`).

    Every sprite found in the new grid loses its `on_floor` flag and is given
    the top-left corner of its cell as target.  Then, for frames
    `i = 0 .. 99` with `t = i / 100`, each such sprite is moved to
    `(1 - t) * current + t * target`.  The current position is read again
    every frame, so this is not a straight interpolation from the start: the
    remaining distance is multiplied by `1 - t` each frame, the first frame
    does not move at all, and the last factor is `1 - 99/100`, so in exact
    arithmetic a sprite that did not start on its target never quite reaches
    it (positions here are exact reals, not the game's doubles).  Finally the
    two portals, when the level has them, learn each other's position. */
module Smoothing {
  import opened Options
  import opened Entities
  import opened Snapping

  /** Frames of the animation. */
  const Steps: nat := 100

  /** `t` of frame `i`. */
  function T(i: nat): real { i as real / 100.0 }

  /** `x` lies on the closed segment between `a` and `b`. */
  predicate Between(x: real, a: real, b: real) {
    (a <= x <= b) || (b <= x <= a)
  }

  /** One frame on one axis: `(1 - t) * x0 + t * x2`.  The distance left to
      the target shrinks by the factor `1 - t`. */
  function Blend(x0: real, x2: real, i: nat): (x1: real)
    requires i < Steps
    ensures x2 - x1 == (1.0 - T(i)) * (x2 - x0)
  {
    (1.0 - T(i)) * x0 + T(i) * x2
  }

  /** The fraction of the initial distance left after `k` frames: the product
      of `1 - i/100` for `i < k`.  It never drops to zero, because the largest
      `t` used is `99/100`. */
  function Shrink(k: nat): (f: real)
    requires k <= Steps
    ensures 0.0 < f <= 1.0
  {
    if k == 0 then 1.0
    else
      var f := Shrink(k - 1);
      var g := 1.0 - T(k - 1);
      assert 0.0 < g <= 1.0;
      assert f * g <= f * 1.0;
      f * g
  }

  /** Position on one axis after `k` frames, starting from `x0` with target
      `x2`. */
  function Glide(x0: real, x2: real, k: nat): (x: real)
    requires k <= Steps
    ensures x2 - x == Shrink(k) * (x2 - x0)
  {
    if k == 0 then x0
    else
      var prev := Glide(x0, x2, k - 1);
      var x := Blend(prev, x2, k - 1);
      GlideStep(x0, x2, k, prev, x);
      x
  }

  /** One more frame multiplies the fraction left by `1 - t`. */
  lemma GlideStep(x0: real, x2: real, k: nat, prev: real, x: real)
    requires 1 <= k <= Steps
    requires x2 - prev == Shrink(k - 1) * (x2 - x0) && x2 - x == (1.0 - T(k - 1)) * (x2 - prev)
    ensures x2 - x == Shrink(k) * (x2 - x0)
  {
    var f := Shrink(k - 1);
    var g := 1.0 - T(k - 1);
    assert Shrink(k) == f * g;
    ScaleTwice(x0, prev, x, x2, f, g);
  }

  /** Two frames' worth of shrinking compose by multiplication. */
  lemma ScaleTwice(x0: real, prev: real, x: real, x2: real, f: real, g: real)
    requires x2 - prev == f * (x2 - x0) && x2 - x == g * (x2 - prev)
    ensures x2 - x == (f * g) * (x2 - x0)
  {
    assert g * (f * (x2 - x0)) == (f * g) * (x2 - x0);
  }

  /** A fraction `p = f * d`, `f` in [0, 1], of `d` lies between 0 and `d`. */
  lemma FractionOf(f: real, d: real, p: real)
    requires 0.0 <= f <= 1.0 && p == f * d
    ensures Between(p, 0.0, d)
  {
    if d >= 0.0 {
      MulNonneg(f, d);
      MulNonneg(1.0 - f, d);
      assert d - f * d == (1.0 - f) * d;
    } else {
      MulNonneg(f, -d);
      MulNonneg(1.0 - f, -d);
      assert f * d == -(f * -d);
      assert f * d - d == (1.0 - f) * -d;
    }
  }

  /** Every frame stays between the start and the target. */
  lemma GlideBetween(x0: real, x2: real, k: nat)
    requires k <= Steps
    ensures Between(Glide(x0, x2, k), x0, x2)
  {
    FractionBetween(Glide(x0, x2, k), x0, x2, Shrink(k));
  }

  /** A point whose distance to `x2` is a fraction of the distance from `x0`
      lies between the two. */
  lemma FractionBetween(x: real, x0: real, x2: real, f: real)
    requires 0.0 <= f <= 1.0 && x2 - x == f * (x2 - x0)
    ensures Between(x, x0, x2)
  {
    FractionOf(f, x2 - x0, x2 - x);
  }

  /** The distance to the target never grows from one frame to the next. */
  lemma GlideApproaches(x0: real, x2: real, k: nat)
    requires k < Steps
    ensures Abs(x2 - Glide(x0, x2, k + 1)) <= Abs(x2 - Glide(x0, x2, k))
  {
    var d := x2 - Glide(x0, x2, k);
    var g := 1.0 - T(k);
    assert x2 - Glide(x0, x2, k + 1) == g * d;
    FractionOf(g, d, g * d);
  }

  /** With `t = 0` the first frame leaves the sprite where it is. */
  lemma FirstFrameStill(x0: real, x2: real)
    ensures Glide(x0, x2, 1) == x0
  {
  }

  /** A product with a non-zero factor is zero only with the other. */
  lemma ZeroProduct(f: real, d: real)
    requires f != 0.0 && f * d == 0.0
    ensures d == 0.0
  {
  }

  /** In exact arithmetic, at no frame, the last included, is the sprite on
      its target unless it started there. */
  lemma GlideArrivesOnlyFromTarget(x0: real, x2: real, k: nat)
    requires k <= Steps
    ensures Glide(x0, x2, k) == x2 <==> x0 == x2
  {
    ZeroDistance(Glide(x0, x2, k), x0, x2, Shrink(k));
  }

  /** A positive fraction of a distance is zero only when the distance is. */
  lemma ZeroDistance(x: real, x0: real, x2: real, f: real)
    requires f > 0.0 && x2 - x == f * (x2 - x0)
    ensures x == x2 <==> x0 == x2
  {
    if x == x2 {
      ZeroProduct(f, x2 - x0);
    }
  }

  /** A position after `k` frames towards `target`, on both axes. */
  function GlidePos(p: Vec, target: Vec, k: nat): (q: Vec)
    requires k <= Steps
    ensures Between(q.x, p.x, target.x) && Between(q.y, p.y, target.y)
    ensures q == target <==> p == target
  {
    GlideBetween(p.x, target.x, k);
    GlideBetween(p.y, target.y, k);
    GlideArrivesOnlyFromTarget(p.x, target.x, k);
    GlideArrivesOnlyFromTarget(p.y, target.y, k);
    Vec(Glide(p.x, target.x, k), Glide(p.y, target.y, k))
  }

  /** A sprite after `k` frames towards `target`: only its position moves. */
  function Moved(s: Sprite, target: Vec, k: nat): Sprite
    requires k <= Steps
  {
    s.(pos := GlidePos(s.pos, target, k))
  }

  /** Targets found in row `i`, scanning columns left to right: a sprite met
      again overwrites its earlier target.  Starts from `acc`. */
  function RowTargets(row: seq<Option<Id>>, i: int, c: int, acc: map<Id, Vec>): (r: map<Id, Vec>)
    ensures forall id :: id in r <==> id in acc || Some(id) in row
    ensures forall id :: id in r ==>
      (id in acc && Some(id) !in row && r[id] == acc[id])
      || (exists j :: 0 <= j < |row| && row[j] == Some(id) && r[id] == CellPos(i, j, c))
    decreases |row|
  {
    if |row| == 0 then acc
    else
      var j := |row| - 1;
      var front := RowTargets(row[..j], i, c, acc);
      var r := if row[j].Some? then front[row[j].value := CellPos(i, j, c)] else front;
      assert forall id :: Some(id) in row <==> Some(id) in row[..j] || row[j] == Some(id);
      assert forall id :: id in r ==>
        (id in acc && Some(id) !in row && r[id] == acc[id])
        || (exists j :: 0 <= j < |row| && row[j] == Some(id) && r[id] == CellPos(i, j, c)) by {
        forall id | id in r
          ensures (id in acc && Some(id) !in row && r[id] == acc[id])
               || (exists j :: 0 <= j < |row| && row[j] == Some(id) && r[id] == CellPos(i, j, c))
        {
          if row[j] != Some(id) {
            assert r[id] == front[id];
            if !(id in acc && Some(id) !in row[..j] && front[id] == acc[id]) {
              var j' :| 0 <= j' < j && row[..j][j'] == Some(id) && front[id] == CellPos(i, j', c);
              assert row[j'] == Some(id);
            }
          }
        }
      }
      r
  }

  /** The first loop of `smooth_movement`: the target of every sprite in the
      grid, rows top to bottom, in reading order.  The target of a sprite is
      the corner of a cell that holds it. */
  function GridTargets(arr: Grid, c: int, rows: nat): (r: map<Id, Vec>)
    requires IsSquare(arr, |arr|) && rows <= |arr|
    ensures forall id :: id in r <==>
      exists i, j :: 0 <= i < rows && 0 <= j < |arr| && arr[i][j] == Some(id)
    ensures forall id :: id in r ==>
      exists i, j :: 0 <= i < rows && 0 <= j < |arr| && arr[i][j] == Some(id) && r[id] == CellPos(i, j, c)
    decreases rows
  {
    if rows == 0 then map[]
    else
      var i := rows - 1;
      var front := GridTargets(arr, c, i);
      var r := RowTargets(arr[i], i, c, front);
      assert forall id :: Some(id) in arr[i] <==> exists j :: 0 <= j < |arr| && arr[i][j] == Some(id);
      r
  }

  function Targets(arr: Grid, c: int): (r: map<Id, Vec>)
    requires IsSquare(arr, |arr|)
    ensures forall id :: id in r <==> Occurs(arr, id)
    ensures forall id :: id in r ==>
      exists i, j :: 0 <= i < |arr| && 0 <= j < |arr| && arr[i][j] == Some(id) && r[id] == CellPos(i, j, c)
  {
    GridTargets(arr, c, |arr|)
  }

  /** When no sprite sits in two cells, the target of a sprite is the corner
      of its own cell. */
  lemma TargetOfUniqueCell(arr: Grid, c: int, i: int, j: int)
    requires IsSquare(arr, |arr|) && Unique(arr)
    requires 0 <= i < |arr| && 0 <= j < |arr| && arr[i][j].Some?
    ensures arr[i][j].value in Targets(arr, c)
    ensures Targets(arr, c)[arr[i][j].value] == CellPos(i, j, c)
  {
    var id := arr[i][j].value;
    assert Occurs(arr, id);
    var i', j' :| 0 <= i' < |arr| && 0 <= j' < |arr| && arr[i'][j'] == Some(id)
      && Targets(arr, c)[id] == CellPos(i', j', c);
  }

  /** `obj.on_floor(False)` for every sprite of the grid. */
  function Unground(world: map<Id, Sprite>, targets: map<Id, Vec>): (r: map<Id, Sprite>)
    ensures r.Keys == world.Keys
    ensures forall id :: id in world ==> r[id] == if id in targets then world[id].(onFloor := false) else world[id]
  {
    map id | id in world :: if id in targets then world[id].(onFloor := false) else world[id]
  }

  /** One frame: every sprite with a target moves by `Blend`. */
  function Frame(world: map<Id, Sprite>, targets: map<Id, Vec>, i: nat): (r: map<Id, Sprite>)
    requires i < Steps
    ensures r.Keys == world.Keys
  {
    map id | id in world ::
      if id in targets
      then world[id].(pos := Vec(Blend(world[id].pos.x, targets[id].x, i), Blend(world[id].pos.y, targets[id].y, i)))
      else world[id]
  }

  /** The hundred frames of the second loop of `smooth_movement`: each
      sprite with a target ends `Steps` frames along its glide, the others do
      not move. */
  method Animate(world: map<Id, Sprite>, targets: map<Id, Vec>) returns (w: map<Id, Sprite>)
    ensures w.Keys == world.Keys
    ensures forall id :: id in world ==>
      w[id] == if id in targets then Moved(world[id], targets[id], Steps) else world[id]
  {
    w := world;
    var i := 0;
    while i < Steps
      invariant 0 <= i <= Steps
      invariant w.Keys == world.Keys
      invariant forall id :: id in world ==>
        w[id] == if id in targets then Moved(world[id], targets[id], i) else world[id]
    {
      w := Frame(w, targets, i);
      i := i + 1;
    }
  }

  /** The closing `try` block: when the level has two portals, each learns
      the other's current position; a level without portals is left alone. */
  function SwapTwins(world: map<Id, Sprite>, portals: Option<(Id, Id)>): (r: map<Id, Sprite>)
    requires portals.Some? ==> portals.value.0 in world && portals.value.1 in world
    requires portals.Some? ==> world[portals.value.0].kind.Portal? && world[portals.value.1].kind.Portal?
    ensures r.Keys == world.Keys
    ensures forall id :: id in world ==> r[id] == world[id].(kind := r[id].kind)
    ensures portals.Some? ==>
      && r[portals.value.0].kind == world[portals.value.0].kind.(twin := world[portals.value.1].pos)
      && r[portals.value.1].kind == world[portals.value.1].kind.(twin := world[portals.value.0].pos)
    ensures forall id :: id in world && (portals.None? || (id != portals.value.0 && id != portals.value.1)) ==>
      r[id] == world[id]
  {
    match portals
    case None => world
    case Some((p0, p1)) =>
      SetTwin(SetTwin(world, p0, world[p1].pos), p1, world[p0].pos)
  }

  /** `set_twin_coords` on portal `p`. */
  function SetTwin(world: map<Id, Sprite>, p: Id, twin: Vec): (r: map<Id, Sprite>)
    requires p in world && world[p].kind.Portal?
    ensures r.Keys == world.Keys
    ensures r[p] == world[p].(kind := world[p].kind.(twin := twin))
    ensures forall id :: id in world && id != p ==> r[id] == world[id]
  {
    world[p := world[p].(kind := world[p].kind.(twin := twin))]
  }

  /** What `smooth_movement` requires: every sprite of the grid is a known
      sprite, and the portals of the level, if any, are portals. */
  ghost predicate Animatable(world: map<Id, Sprite>, arr: Grid, portals: Option<(Id, Id)>)
    requires IsSquare(arr, |arr|)
  {
    && (forall id :: Occurs(arr, id) ==> id in world)
    && (portals.Some? ==>
          && portals.value.0 in world && portals.value.1 in world
          && world[portals.value.0].kind.Portal? && world[portals.value.1].kind.Portal?)
  }

  /** Sprite `id` has gone from its place in `before` to where the
      animation leaves it on the way to the corner of a cell of `arr` that
      holds it. */
  ghost predicate GlidedToCell(before: map<Id, Sprite>, after: map<Id, Sprite>, arr: Grid, c: int, id: Id)
    requires IsSquare(arr, |arr|)
  {
    && id in before && id in after
    && exists i, j ::
         && 0 <= i < |arr| && 0 <= j < |arr| && arr[i][j] == Some(id)
         && after[id].pos == GlidePos(before[id].pos, CellPos(i, j, c), Steps)
  }

  /** `smooth_movement(arr)` with cell size `c`.  Every sprite of the grid
      is off the floor and has glided towards the corner of a cell holding
      it, staying between its start and that corner; every other sprite
      keeps its place and state except for the portals' twin coordinates,
      which end up pointing at each other. */
  method SmoothMovement(world: map<Id, Sprite>, arr: Grid, c: int, portals: Option<(Id, Id)>)
    returns (r: map<Id, Sprite>)
    requires IsSquare(arr, |arr|) && Animatable(world, arr, portals)
    ensures r.Keys == world.Keys
    ensures forall id :: Occurs(arr, id) ==> !r[id].onFloor && GlidedToCell(world, r, arr, c, id)
    ensures forall id :: id in world && !Occurs(arr, id) ==> r[id].pos == world[id].pos
    ensures forall id :: id in world ==>
      && r[id].id == world[id].id && r[id].size == world[id].size
      && r[id].danger == world[id].danger && r[id].dead == world[id].dead
    ensures forall id :: id in world && !Occurs(arr, id) ==> r[id].onFloor == world[id].onFloor
    ensures forall id :: id in world ==>
      r[id] == world[id].(onFloor := r[id].onFloor, pos := r[id].pos, kind := r[id].kind)
    ensures forall id :: id in world && (portals.None? || (id != portals.value.0 && id != portals.value.1)) ==>
      r[id].kind == world[id].kind
    ensures portals.Some? ==> r[portals.value.0].kind.Portal? && r[portals.value.1].kind.Portal?
    ensures portals.Some? ==>
      && r[portals.value.0].kind.twin == r[portals.value.1].pos
      && r[portals.value.1].kind.twin == r[portals.value.0].pos
  {
    var targets := Targets(arr, c);
    var grounded := Unground(world, targets);
    var moved := Animate(grounded, targets);
    r := SwapTwins(moved, portals);
    forall id | Occurs(arr, id)
      ensures !r[id].onFloor && GlidedToCell(world, r, arr, c, id)
    {
      assert id in targets && id in world;
      assert moved[id] == Moved(grounded[id], targets[id], Steps);
      assert r[id].pos == moved[id].pos && r[id].onFloor == moved[id].onFloor;
      var i, j :| 0 <= i < |arr| && 0 <= j < |arr| && arr[i][j] == Some(id) && targets[id] == CellPos(i, j, c);
      assert r[id].pos == GlidePos(world[id].pos, CellPos(i, j, c), Steps);
    }
    forall id | id in world
      ensures r[id] == world[id].(onFloor := r[id].onFloor, pos := r[id].pos, kind := r[id].kind)
    {
      assert grounded[id] == world[id].(onFloor := grounded[id].onFloor);
      assert moved[id] == grounded[id].(pos := moved[id].pos);
      assert r[id] == moved[id].(kind := r[id].kind);
    }
    forall id | id in world && (portals.None? || (id != portals.value.0 && id != portals.value.1))
      ensures r[id].kind == world[id].kind
    {
      assert grounded[id].kind == world[id].kind;
      assert moved[id].kind == grounded[id].kind;
      assert r[id] == moved[id];
    }
  }
}

=== FILE: snapping.dfy ===
/** Snapping sprites onto the level grid (`round_to_cell_size` and
    `place_to_grid`).

    The screen is 700 pixels high, so a level with cell size C has a square
    grid of `700 // C` cells per side.  A coordinate is rounded to the
    nearest multiple of C, rounding up when its remainder is at least
    `C // 2`.  Each sprite of the group is moved to its rounded position
    and written into the cell with row `y // C` and column `x // C`; when
    two sprites land in the same cell, the later one in the group's
    iteration order wins. */
module Snapping {
  import opened Options
  import opened Entities

  /** `_DISPLAY_HEIGHT` (the screen is square). */
  const DisplayHeight: int := 700

  type Grid = seq<seq<Option<Id>>>

  /** Cells per side of the grid. */
  function Cells(c: int): int
    requires c >= 1
  {
    DisplayHeight / c
  }

  predicate IsSquare(g: Grid, n: int) {
    |g| == n && forall i :: 0 <= i < |g| ==> |g[i]| == n
  }

  /** Sprite `id` sits in some cell of `g`. */
  predicate Occurs(g: Grid, id: Id)
    requires IsSquare(g, |g|)
  {
    exists i, j :: 0 <= i < |g| && 0 <= j < |g| && g[i][j] == Some(id)
  }

  /** No sprite sits in two cells. */
  predicate Unique(g: Grid)
    requires IsSquare(g, |g|)
  {
    forall i, j, i', j' ::
      0 <= i < |g| && 0 <= j < |g| && 0 <= i' < |g| && 0 <= j' < |g| && g[i][j].Some? && g[i][j] == g[i'][j']
      ==> i == i' && j == j'
  }

  /** A grid of `n` by `n` empty cells. */
  function EmptyGrid(n: nat): (g: Grid)
    ensures IsSquare(g, n)
    ensures forall i, j :: 0 <= i < n && 0 <= j < n ==> g[i][j] == None
  {
    seq(n, _ => seq(n, _ => None))
  }

  /** Python's `coord // c` for a real coordinate. */
  function FloorDiv(coord: real, c: int): int
    requires c >= 1
  {
    (coord / c as real).Floor
  }

  lemma FloorDivBounds(coord: real, c: int)
    requires c >= 1
    ensures (FloorDiv(coord, c) * c) as real <= coord < ((FloorDiv(coord, c) + 1) * c) as real
  {
    var q := FloorDiv(coord, c);
    var q1 := q + 1;
    var k := c as real;
    var x := coord / k;
    assert q as real <= x < q1 as real;
    assert coord == x * k;
    ScaleLe(q as real, x, k);
    ScaleLt(x, q1 as real, k);
    CastMul(q, c);
    CastMul(q1, c);
  }

  /** Converting a product to a real is multiplying the converted factors. */
  lemma {:induction false} CastMul(a: int, b: nat)
    ensures (a * b) as real == a as real * b as real
    decreases b
  {
    if b > 0 {
      CastMul(a, b - 1);
      assert a * b == a * (b - 1) + a;
      assert a as real * b as real == a as real * (b - 1) as real + a as real;
    }
  }

  lemma MulNonneg(a: real, b: real)
    requires 0.0 <= a && 0.0 <= b
    ensures 0.0 <= a * b
  {
  }

  lemma MulPos(a: real, b: real)
    requires 0.0 < a && 0.0 < b
    ensures 0.0 < a * b
  {
  }

  lemma ScaleLe(a: real, b: real, k: real)
    requires a <= b && k > 0.0
    ensures a * k <= b * k
  {
    MulNonneg(b - a, k);
    assert b * k - a * k == (b - a) * k;
  }

  lemma ScaleLt(a: real, b: real, k: real)
    requires a < b && k > 0.0
    ensures a * k < b * k
  {
    MulPos(b - a, k);
    assert b * k - a * k == (b - a) * k;
  }

  /** Dividing a multiple of `c` by `c` is exact. */
  lemma DivMul(k: int, c: int)
    requires c >= 1
    ensures (k * c) / c == k && (k * c) % c == 0
  {
    var q := (k * c) / c;
    var m := (k * c) % c;
    assert k * c == c * q + m && 0 <= m < c;
    var d := k - q;
    assert c * d == m;
    assert d >= 1 ==> c * d >= c * 1;
    assert d <= -1 ==> c * d <= c * -1;
  }

  /** Python's `coord % c`: what is left above the multiple of `c` below. */
  function Mod(coord: real, c: int): (m: real)
    requires c >= 1
    ensures 0.0 <= m < c as real
  {
    FloorDivBounds(coord, c);
    coord - (FloorDiv(coord, c) * c) as real
  }

  /** `round_to_cell_size`.  The two branches of the game compute
      `coord + C - coord % C` and `coord - coord % C`, which are the multiples
      of C just above and just below `coord`. */
  function RoundToCell(coord: real, c: int): (r: int)
    requires c >= 1
    ensures r % c == 0
    ensures r as real == (if Mod(coord, c) >= (c / 2) as real
                          then coord + c as real - Mod(coord, c)
                          else coord - Mod(coord, c))
  {
    var q := FloorDiv(coord, c);
    DivMul(q, c);
    DivMul(q + 1, c);
    if Mod(coord, c) >= (c / 2) as real then (q + 1) * c else q * c
  }

  /** The rounded value is one of the two multiples of C around `coord`, at
      most `C - C // 2` away from it. */
  lemma RoundToCellIsNearby(coord: real, c: int)
    requires c >= 1
    ensures var r := RoundToCell(coord, c);
      && (FloorDiv(coord, c) * c == r || (FloorDiv(coord, c) + 1) * c == r)
      && Abs(r as real - coord) <= (c - c / 2) as real
  {
    FloorDivBounds(coord, c);
  }

  /** Dividing a multiple of `c` by `c` loses nothing. */
  lemma ExactDiv(x: int, c: int)
    requires c >= 1 && x % c == 0
    ensures (x / c) * c == x
  {
  }

  lemma MultipleDiv(k: int, c: int)
    requires c >= 1
    ensures FloorDiv((k * c) as real, c) == k
  {
    CastMul(k, c);
    assert (k as real * c as real) / c as real == k as real;
  }

  /** For cells of at least two pixels, rounding a multiple of C gives it
      back, so rounding is idempotent. */
  lemma RoundToCellIdempotent(coord: real, c: int)
    requires c >= 2
    ensures RoundToCell(RoundToCell(coord, c) as real, c) == RoundToCell(coord, c)
  {
    var r := RoundToCell(coord, c);
    MultipleDiv(r / c, c);
    assert (r / c) * c == r;
  }

  /** For a one-pixel cell the remainder 0 already reaches `1 // 2 == 0`, so
      every whole coordinate is pushed up by one: rounding is not idempotent. */
  lemma UnitCellShiftsUp(k: int)
    ensures RoundToCell(k as real, 1) == k + 1
  {
    MultipleDiv(k, 1);
  }

  /** Grid row and column of a sprite once snapped: `(y // C, x // C)`. */
  function CellOf(s: Sprite, c: int): (int, int)
    requires c >= 1
  {
    (RoundToCell(s.pos.y, c) / c, RoundToCell(s.pos.x, c) / c)
  }

  /** Pixel position of the top-left corner of cell (row `i`, column `j`). */
  function CellPos(i: int, j: int, c: int): Vec {
    Vec((j * c) as real, (i * c) as real)
  }

  /** The snapped sprite lands inside the grid.  The game indexes its grid
      with these numbers, so a negative or too large one is a programming
      error there (Python would wrap around or fail). */
  predicate Fits(s: Sprite, c: int)
    requires c >= 1
  {
    0 <= CellOf(s, c).0 < Cells(c) && 0 <= CellOf(s, c).1 < Cells(c)
  }

  /** Moving a sprite to its rounded position (`set_coords((x, y))`): it sits
      exactly on the top-left corner of its cell and nothing else changes. */
  function Snap(s: Sprite, c: int): (r: Sprite)
    requires c >= 1
    ensures r.pos == CellPos(CellOf(s, c).0, CellOf(s, c).1, c)
    ensures r == s.(pos := r.pos)
  {
    var x := RoundToCell(s.pos.x, c);
    var y := RoundToCell(s.pos.y, c);
    ExactDiv(x, c);
    ExactDiv(y, c);
    s.(pos := Vec(x as real, y as real))
  }

  /** With cells of at least two pixels, a snapped sprite stays in its cell
      and snapping it again changes nothing. */
  lemma SnapIdempotent(s: Sprite, c: int)
    requires c >= 2
    ensures CellOf(Snap(s, c), c) == CellOf(s, c)
    ensures Snap(Snap(s, c), c) == Snap(s, c)
  {
    RoundToCellIdempotent(s.pos.x, c);
    RoundToCellIdempotent(s.pos.y, c);
  }

  predicate Distinct(order: seq<Id>) {
    forall a, b :: 0 <= a < b < |order| ==> order[a] != order[b]
  }

  /** What `place_to_grid` needs of the group: a set (no sprite twice) of
      known sprites, each of which snaps into the grid. */
  predicate Placeable(world: map<Id, Sprite>, order: seq<Id>, c: int)
    requires c >= 1
  {
    Distinct(order)
    && forall k :: 0 <= k < |order| ==> order[k] in world && Fits(world[order[k]], c)
  }

  /** `grid[i][j] = v`. */
  function SetCell(g: Grid, i: int, j: int, v: Option<Id>): (r: Grid)
    requires IsSquare(g, |g|) && 0 <= i < |g| && 0 <= j < |g|
    ensures IsSquare(r, |g|)
    ensures forall a, b :: 0 <= a < |g| && 0 <= b < |g| ==>
      r[a][b] == if a == i && b == j then v else g[a][b]
  {
    g[i := g[i][j := v]]
  }

  /** Some sprite of `order` snaps into cell (i, j). */
  predicate Claimed(world: map<Id, Sprite>, order: seq<Id>, c: int, i: int, j: int)
    requires c >= 1 && forall k :: 0 <= k < |order| ==> order[k] in world
  {
    exists k :: 0 <= k < |order| && CellOf(world[order[k]], c) == (i, j)
  }

  /** A cell is claimed by a sequence iff it is claimed by all but its last
      sprite, or by the last sprite. */
  lemma ClaimedSnoc(world: map<Id, Sprite>, order: seq<Id>, c: int)
    requires c >= 1 && |order| > 0 && forall k :: 0 <= k < |order| ==> order[k] in world
    ensures forall i, j :: Claimed(world, order, c, i, j) <==>
      Claimed(world, order[..|order| - 1], c, i, j) || CellOf(world[order[|order| - 1]], c) == (i, j)
  {
    var front := order[..|order| - 1];
    forall i, j | Claimed(world, order, c, i, j)
      ensures Claimed(world, front, c, i, j) || CellOf(world[order[|order| - 1]], c) == (i, j)
    {
      var k :| 0 <= k < |order| && CellOf(world[order[k]], c) == (i, j);
      if k < |front| {
        assert front[k] == order[k];
      }
    }
    forall i, j | Claimed(world, front, c, i, j) ensures Claimed(world, order, c, i, j) {
      var k :| 0 <= k < |front| && CellOf(world[front[k]], c) == (i, j);
      assert order[k] == front[k];
    }
  }

  /** The grid writes of the loop of `place_to_grid`, in iteration order, on
      top of the grid `g`.  Each sprite is recorded under the cell of its
      position before snapping, which is where the snapped sprite sits. */
  function FillGrid(world: map<Id, Sprite>, order: seq<Id>, c: int, g: Grid): (r: Grid)
    requires c >= 1 && IsSquare(g, Cells(c)) && Placeable(world, order, c)
    ensures IsSquare(r, Cells(c))
    ensures forall i, j :: 0 <= i < Cells(c) && 0 <= j < Cells(c) && r[i][j] != g[i][j] ==>
      r[i][j].Some? && r[i][j].value in order && CellOf(world[r[i][j].value], c) == (i, j)
    ensures forall i, j :: 0 <= i < Cells(c) && 0 <= j < Cells(c) ==>
      (r[i][j].None? <==> g[i][j].None? && !Claimed(world, order, c, i, j))
    decreases |order|
  {
    if |order| == 0 then g
    else
      var front := order[..|order| - 1];
      var id := order[|order| - 1];
      assert Placeable(world, front, c);
      var cell := CellOf(world[id], c);
      var r := SetCell(FillGrid(world, front, c, g), cell.0, cell.1, Some(id));
      ClaimedSnoc(world, order, c);
      r
  }

  /** Every sprite of `order` moved onto the corner of its cell. */
  function SnapAll(world: map<Id, Sprite>, order: seq<Id>, c: int): (r: map<Id, Sprite>)
    requires c >= 1
    ensures r.Keys == world.Keys
    ensures forall id :: id in world ==> r[id] == if id in order then Snap(world[id], c) else world[id]
  {
    map id | id in world :: if id in order then Snap(world[id], c) else world[id]
  }

  datatype Placement = Placement(world: map<Id, Sprite>, grid: Grid)

  /** `place_to_grid`: snap every sprite of the group and record it in an
      empty grid of `700 // C` cells per side.  Every occupied cell holds a
      sprite standing on that cell's corner, and a cell stays empty exactly
      when no sprite of the group rounds into it. */
  function PlaceToGrid(world: map<Id, Sprite>, order: seq<Id>, c: int): (r: Placement)
    requires c >= 1 && Placeable(world, order, c)
    ensures r.world.Keys == world.Keys && IsSquare(r.grid, Cells(c))
    ensures forall id :: id in world && id !in order ==> r.world[id] == world[id]
    ensures forall k :: 0 <= k < |order| ==> r.world[order[k]] == Snap(world[order[k]], c)
    ensures forall i, j :: 0 <= i < Cells(c) && 0 <= j < Cells(c) && r.grid[i][j].Some? ==>
      r.grid[i][j].value in order && r.grid[i][j].value in r.world
      && r.world[r.grid[i][j].value].pos == CellPos(i, j, c)
    ensures forall i, j :: 0 <= i < Cells(c) && 0 <= j < Cells(c) ==>
      (r.grid[i][j].None? <==> !Claimed(world, order, c, i, j))
    ensures Unique(r.grid)
  {
    var g := FillGrid(world, order, c, EmptyGrid(Cells(c)));
    FilledGridUnique(world, order, c, g);
    Placement(SnapAll(world, order, c), g)
  }

  /** A grid filled from empty holds each sprite in the one cell it rounds
      into, so in no more than one cell. */
  lemma FilledGridUnique(world: map<Id, Sprite>, order: seq<Id>, c: int, g: Grid)
    requires c >= 1 && Placeable(world, order, c)
    requires g == FillGrid(world, order, c, EmptyGrid(Cells(c)))
    ensures Unique(g)
  {
    var n := Cells(c);
    forall i, j, i', j' | 0 <= i < n && 0 <= j < n && 0 <= i' < n && 0 <= j' < n && g[i][j].Some? && g[i][j] == g[i'][j']
      ensures i == i' && j == j'
    {
      FilledCell(world, order, c, g, i, j);
      FilledCell(world, order, c, g, i', j');
    }
  }

  /** A sprite in a grid filled from empty sits in the cell it rounds into. */
  lemma FilledCell(world: map<Id, Sprite>, order: seq<Id>, c: int, g: Grid, i: int, j: int)
    requires c >= 1 && Placeable(world, order, c)
    requires g == FillGrid(world, order, c, EmptyGrid(Cells(c)))
    requires 0 <= i < Cells(c) && 0 <= j < Cells(c) && g[i][j].Some?
    ensures g[i][j].value in world && CellOf(world[g[i][j].value], c) == (i, j)
  {
    assert EmptyGrid(Cells(c))[i][j] == None;
  }

  /** The grid writes depend only on which cell each sprite rounds into. */
  lemma {:induction false} FillGridSameCells(w1: map<Id, Sprite>, w2: map<Id, Sprite>, order: seq<Id>, c: int, g: Grid)
    requires c >= 1 && IsSquare(g, Cells(c)) && Placeable(w1, order, c) && Placeable(w2, order, c)
    requires forall k :: 0 <= k < |order| ==> CellOf(w1[order[k]], c) == CellOf(w2[order[k]], c)
    ensures FillGrid(w1, order, c, g) == FillGrid(w2, order, c, g)
    decreases |order|
  {
    if |order| > 0 {
      var front := order[..|order| - 1];
      assert Placeable(w1, front, c) && Placeable(w2, front, c);
      assert forall k :: 0 <= k < |front| ==> front[k] == order[k];
      FillGridSameCells(w1, w2, front, c, g);
    }
  }

  /** For cells of at least two pixels, snapping the snapped sprites again
      changes nothing. */
  lemma SnapAllIdempotent(world: map<Id, Sprite>, order: seq<Id>, c: int)
    requires c >= 2
    ensures SnapAll(SnapAll(world, order, c), order, c) == SnapAll(world, order, c)
  {
    var w := SnapAll(world, order, c);
    forall id | id in w ensures SnapAll(w, order, c)[id] == w[id] {
      if id in order {
        SnapIdempotent(world[id], c);
      }
    }
  }

  /** For cells of at least two pixels, placing an already placed group
      again changes neither the sprites nor the grid. */
  lemma PlaceToGridIdempotent(world: map<Id, Sprite>, order: seq<Id>, c: int)
    requires c >= 2 && Placeable(world, order, c)
    ensures var p := PlaceToGrid(world, order, c);
      Placeable(p.world, order, c) && PlaceToGrid(p.world, order, c) == p
  {
    var p := PlaceToGrid(world, order, c);
    forall k | 0 <= k < |order| ensures CellOf(p.world[order[k]], c) == CellOf(world[order[k]], c) {
      SnapIdempotent(world[order[k]], c);
    }
    assert Placeable(p.world, order, c);
    SnapAllIdempotent(world, order, c);
    FillGridSameCells(p.world, world, order, c, EmptyGrid(Cells(c)));
  }
}
